=== FILE: README.md ===
# school-site-admin: menu tree and site information, in Dafny

This project models two pieces of the school-site admin panel.

The first is the menu editor (`src/MenuItems/MenuItems.tsx`). Menu items are
stored flat, one record per item under the `menuItems` key of a realtime
database. Each record has an `id`, a `title`, an optional ordered `children`
list of ids and an optional `parentId`. The page turns the flat store into a
nested, fully expanded tree ("materialise"). After a drag it writes the whole
tree back as one multi-path update ("save order"). It also adds a root item,
renames an item in place, and deletes an item together with everything
below it in the view.

The second is the site-information reducer
(`src/features/SiteInfo/siteInfoReducer.tsx`). It holds four text fields and
two lists, phone numbers and e-mails, and applies eleven kinds of action.

Modules, in dependency order:

- `Wrappers`: the `Option` type.
- `MenuStore`: the record, the store, update paths, and the consistency
  predicate `WellFormed`.
- `MenuView`: the view tree and materialisation.
- `MenuFlat`: the flat image of a tree (the records it denotes) and the
  preorder of its ids.
- `MenuSave`: `saveOrder` as written, plus its reference definition and the
  proofs that the two agree.
- `MenuRoundTrip`: materialising a consistent store and saving the untouched
  view writes every stored record back with its id, title, `parentId` and
  `children`; an empty `children` list is written as absent.
- `MenuRemove` and `MenuRemoveSafety`: the deletion update, and what it
  leaves behind once applied.
- `MenuEdit`: adding, renaming and the editing state.
- `SiteInfoReducer`: the reducer, with JavaScript's `slice` modelled exactly.

Database writes are not performed. Each operation returns the update map it
would submit: path to record for add, edit and save, and path to record or
null for delete. The key generator `push().key` is a parameter. In a save it
is a function from the draw count to an optional key, so it can fail.

## Model

| member | source | states |
|---|---|---|
| MenuStore.PathOfInjective | src/MenuItems/MenuItems.tsx:20 | Different ids are written under different `menuItems/<id>` paths, so the writes of one update never collide |
| MenuStore.Lookup | src/MenuItems/MenuItems.tsx:69 | `dbMenuItems[id]` finds the stored record with that id, and finds nothing exactly when no record has it |
| MenuView.RootRecords | src/MenuItems/MenuItems.tsx:74-78 | The roots are exactly the stored records whose `parentId` is absent or empty |
| MenuView.Build | src/MenuItems/MenuItems.tsx:66-72 | The view of a record keeps its id, title and parent and is expanded. It has one child per listed id, in order, each the view of that child's record, and no children when the list is absent |
| MenuView.Materialise | src/MenuItems/MenuItems.tsx:61-81 | One tree per root record, in store order, each the view of its root |
| MenuView.MirrorsUnique | src/MenuItems/MenuItems.tsx:66-72 | `Mirrors` fixes the whole tree for a record, so the `Mirrors` clause in `Build`'s contract describes its result completely |
| MenuView.MirrorsExpanded | src/MenuItems/MenuItems.tsx:71 | Every node of a materialised view, at every depth, is expanded |
| MenuFlat.FlatForestKeys | src/MenuItems/MenuItems.tsx:116-130 | The records a tree stands for sit under exactly the paths of its node ids |
| MenuFlat.FlatForestRecords | src/MenuItems/MenuItems.tsx:116-130 | When no id repeats, every node's record is written under its id. That record holds the node's title, its tree parent as `parentId`, and its children's ids in order |
| MenuSave.Allocate | src/MenuItems/MenuItems.tsx:110-112 | A non-empty id is reused without drawing a key. Otherwise exactly one key is drawn, and a null or empty key means the node gets no id |
| MenuSave.NodeMatchesFlat | src/MenuItems/MenuItems.tsx:104-131 | `addChildrenUpdates` on a node that has just been written draws exactly the keys its id assignment draws. When no id reappears below the node, it adds exactly the records of its subtree: each child under its id with the node as `parentId`, recursively, and the node's record completed with its kept children's ids (left without `children` when none is kept) |
| MenuSave.SaveChild | src/MenuItems/MenuItems.tsx:109-123 | A kept child has a non-empty id whose record is written. A skipped child writes nothing and only consumes its key draw |
| MenuSave.SaveChildren | src/MenuItems/MenuItems.tsx:107-123 | The collected `children` list has at most one non-empty id per child, and every path written earlier stays written |
| MenuSave.SaveRoots | src/MenuItems/MenuItems.tsx:133-144 | A root that has no id and gets no key aborts the whole save, and nothing is submitted |
| MenuSave.SaveOrder | src/MenuItems/MenuItems.tsx:101-147 | Saving an empty view submits an empty update |
| MenuSave.AssignChild | src/MenuItems/MenuItems.tsx:109-122 | A child is dropped with its subtree exactly when it has no id and its key draw fails. Otherwise it keeps its title and its id (or gets the drawn key), and all its descendants get ids. A fully identified child is unchanged and draws nothing |
| MenuSave.AssignRoots | src/MenuItems/MenuItems.tsx:133-144 | The roots keep their count, titles and non-empty ids, and every node gets an id. A fully identified view is unchanged |
| MenuSave.SaveOrderIsFlat | src/MenuItems/MenuItems.tsx:101-147 | `saveOrder` fails exactly when assigning ids fails. Otherwise it submits the flat image of the view with the assigned ids: one record per node, the parent's record rewritten with its children's ids |
| MenuSave.SaveOrderRecords | src/MenuItems/MenuItems.tsx:104-144 | With no id repeated, the update has one key per node. Each record holds the node's id and title, `parentId` = its tree parent (absent for a root), and `children` = its tree children's ids in order (absent when none) |
| MenuRoundTrip.ForestDistinct | src/MenuItems/MenuItems.tsx:66-77 | In a consistent store, the view of distinct siblings never repeats an id |
| MenuRoundTrip.MirrorsRecordAt | src/MenuItems/MenuItems.tsx:116-130 | The record save writes for a materialised node is the stored record, with an empty `children` list dropped |
| MenuRoundTrip.MaterialiseReachesAll | src/MenuItems/MenuItems.tsx:61-81 | In a consistent store, every stored record appears in the materialised view: its `parentId` chain leads to a root, and the view follows every `children` link |
| MenuRoundTrip.RoundTrip | src/MenuItems/MenuItems.tsx:61-147 | Saving a freshly materialised consistent store succeeds without drawing keys and writes back every stored record, and nothing else. Each record keeps its stored id, title, `parentId` and ordered `children`, with an empty list written as absent |
| MenuRemove.FilterOut | src/MenuItems/MenuItems.tsx:159 | The filtered list holds exactly the ids other than the deleted one |
| MenuRemove.FilterOutAppend | src/MenuItems/MenuItems.tsx:159 | Filtering keeps the remaining ids in their order |
| MenuRemove.FilterOutNoDuplicates | src/MenuItems/MenuItems.tsx:159 | Filtering a list without repeated ids keeps it without repeats |
| MenuRemove.Detached | src/MenuItems/MenuItems.tsx:156-160 | A rewritten record keeps id, title and parent and always gets a `children` list |
| MenuRemove.RewriteStore | src/MenuItems/MenuItems.tsx:152-161 | The first loop writes one entry per stored record: null for the target, the detached record for every other |
| MenuRemove.Tombstones | src/MenuItems/MenuItems.tsx:163-168 | `getChildrenUpdates` nulls exactly the keys of every node below the target, and nothing else |
| MenuRemove.CascadeKeysAreIds | src/MenuItems/MenuItems.tsx:165 | For a view whose nodes all have ids, the nulled keys are the ids below the target, in preorder |
| MenuRemove.RemoveMenuItem | src/MenuItems/MenuItems.tsx:149-173 | Target and descendants become null. Every other stored record is written back with the target filtered out of its `children`. Every record written sits under its own id |
| MenuRemoveSafety.Apply | src/MenuItems/MenuItems.tsx:172 | Applying an update to the store leaves only records that were stored before |
| MenuRemoveSafety.LookupApply | src/MenuItems/MenuItems.tsx:172 | After the update, a stored record is deleted, replaced or untouched as the update says, and no new record appears |
| MenuRemoveSafety.SurvivorsWellFormed | src/MenuItems/MenuItems.tsx:152-161 | Removing a downward-closed subtree and filtering its top out of every `children` list keeps a store consistent |
| MenuRemoveSafety.ViewIsSubtree | src/MenuItems/MenuItems.tsx:163-168 | The ids of a materialised view are stored, closed under `children`, and each climbs through `parentId` to the view's top |
| MenuRemoveSafety.RemovePreservesWellFormed | src/MenuItems/MenuItems.tsx:149-173 | Deleting a materialised node removes exactly its view's records. It detaches the node from its parent, changes no other record except for that filtering, and leaves the store consistent: no survivor names a deleted child or parent |
| MenuEdit.AddMenuItem | src/MenuItems/MenuItems.tsx:83-93 | An empty input writes nothing. Otherwise exactly one record is written under the new key, with that key as id, the typed title, and no parent or children. The input ends empty |
| MenuEdit.AppendWellFormed | src/MenuItems/MenuItems.tsx:88-90 | Writing a parentless, childless record under a fresh id keeps the store consistent |
| MenuEdit.AddedIsRoot | src/MenuItems/MenuItems.tsx:83-93 | After adding to a consistent store, the store stays consistent and the new item is a root whose view is an expanded node with no children |
| MenuEdit.ChildIdsOf | src/MenuItems/MenuItems.tsx:180 | The children's ids in order, defined exactly when every child has an id |
| MenuEdit.EditMenuItem | src/MenuItems/MenuItems.tsx:175-186 | One record under the node's id, with the edited title, the node's parent and its current children's ids in order. The write is rejected when the node or a child has no id |
| MenuEdit.EditMaterialised | src/MenuItems/MenuItems.tsx:175-186 | Renaming a materialised node writes back the stored record with only the title changed and an absent `children` list written as `[]` |
| MenuEdit.StartEditing | src/MenuItems/MenuItems.tsx:203-206 | The edit button selects the node for editing and starts from its title |
| MenuEdit.CancelEditing | src/MenuItems/MenuItems.tsx:188-191 | Cancelling resets both fields to the empty string, so no node with an id is selected |
| MenuEdit.CommitEdit | src/MenuItems/MenuItems.tsx:184-185 | A successful write carries the typed title and is followed by cancelling. A rejected write leaves the editing state as it was |
| MenuEdit.ConfirmUntouched | src/MenuItems/MenuItems.tsx:193-206 | Pressing edit then confirming without typing rewrites the stored record, with an absent `children` list written as `[]`, and returns to the idle state |
| SiteInfoReducer.Bound | src/features/SiteInfo/siteInfoReducer.tsx:129-131 | How `slice` reads a bound: a negative index counts from the end, and the result is clamped to the list |
| SiteInfoReducer.Slice | src/features/SiteInfo/siteInfoReducer.tsx:129-131 | In range, a slice is the sub-list. It is never longer than the list, and its elements come from the list in order starting at the resolved bound |
| SiteInfoReducer.UpdateAt | src/features/SiteInfo/siteInfoReducer.tsx:128-132 | An in-range index replaces that entry only. An index at or past the end appends. `-1` keeps every entry and duplicates all but the last around the new one |
| SiteInfoReducer.DeleteAt | src/features/SiteInfo/siteInfoReducer.tsx:137-140 | An in-range index removes exactly that entry and shifts the rest down. An index at or past the end changes nothing. `-1` duplicates all but the last entry |
| SiteInfoReducer.Reduce | src/features/SiteInfo/siteInfoReducer.tsx:96-167 | `AddAll` replaces the state. Each setter changes only its field. Phone actions touch only the phone list and e-mail actions only the e-mail list. Adds append, and updates and deletes follow the index rules above |
| SiteInfoReducer.AddThenDeleteRestores | src/features/SiteInfo/siteInfoReducer.tsx:120-163 | Adding an entry, then deleting at the old length, restores the state |
| SiteInfoReducer.UpdateWithSameIsIdentity | src/features/SiteInfo/siteInfoReducer.tsx:125-155 | Rewriting a phone number or an e-mail with its current value leaves the state unchanged |
| SiteInfoReducer.DeleteThenAddMovesLast | src/features/SiteInfo/siteInfoReducer.tsx:142-163 | Deleting an e-mail and adding it again moves it to the end: the other entries keep their order, and the list has the same length and entries |
| SiteInfoReducer.AddPhonesAppends | src/features/SiteInfo/siteInfoReducer.tsx:120-124 | Dispatching `AddPhoneNumber` once per number appends the numbers in order and changes no other field |
| SiteInfoReducer.AddPhonesFromInitial | src/features/SiteInfo/siteInfoReducer.tsx:3-10 | From the initial state, whose lists are empty, the phone list holds exactly the numbers added and the e-mail list stays empty |
| SiteInfoReducer.ListActionsCommute | src/features/SiteInfo/siteInfoReducer.tsx:120-163 | A phone action and an e-mail action commute |

## Left out

- Database I/O: the live subscription to `menuItems`, the asynchronous `update` calls and their failures. Operations return the update they would submit. Two are also applied to a store, to state what they leave behind: deletion (`MenuRemoveSafety.Apply`) and adding (appending the new record, `MenuEdit.AppendWellFormed` and `MenuEdit.AddedIsRoot`).
- React state, rendering, the sortable-tree widget and its drag-and-drop. The tree a drag produces is an input to the save. The Enter-key handler only calls add, and is left out.
- Store keys: each record is assumed to sit under a key equal to its `id`. The source always writes records this way.
- Store order: the order of `Object.values` is the order of the store sequence.
- Dangling child ids: `transformFromBackend` reads a field of the missing record and throws, so materialisation requires every reachable child id to be stored.
- Cyclic `children` links: on these the source recurses forever. Materialisation requires a rank that decreases along `children`, which rules out cycles.
- Extra fields: the `...menuItem` and `...itemToEdit` spreads copy every field. Rename therefore also writes the view-only `expanded` flag. The model keeps only the four record fields.
- Empty lists: the database stores an empty `children` array as absent. Deletion and rename write `Some([])`, and the model does not fold this into absence.
- The key in `addMenuItem`: it is a given non-null string, because a push key of a child reference is never null. Keys drawn during a save may fail, as in the source.
- MenuEdit.EditMenuItem: a node or child without an id yields no write (`None`). This stands for the database client rejecting `undefined` values.
- MenuEdit.AddedIsRoot: the new record is placed last in store order. It makes no claim about where a real push key sorts.
- MenuSave.SaveOrderIsFlat: equality with the flat image is proved only when no id reappears inside its own subtree. When an id repeats, the source's later writes overwrite earlier ones, and the model computes that but does not characterise it.
- MenuRemoveSafety.RemovePreservesWellFormed: stated for the freshly materialised view of a stored record, not for a view edited since.
- Deletion rewrites every stored record, filtering its `children`, not only the former parent.
- MenuRemoveSafety.Apply: writes under keys with no stored record are ignored, whereas the database's `update` would create records there. This is exact for deletion updates: their only non-null writes are under stored ids (`MenuRemove.RewriteStore`), and nulls under unstored keys change nothing.
- Save then reload: no lemma states that applying a save and materialising again gives back the saved tree, because that does not hold in full. `saveOrder` writes no order among the roots, and reloading lists roots in `Object.values` order, so a drag that reorders roots is not persisted. Records missing from the view are not deleted either. The save's writes are characterised instead (`MenuSave.SaveOrderRecords`), and the other direction, materialise then save, is `MenuRoundTrip.RoundTrip`.
- Reducer: the `default` branch is left out because the action type is closed and the branch cannot be reached. Indices are integers, and fractional `number` indices are not modelled.
- The rest of the dashboard (partners, routes, toolbar, section lists) is not modelled.

=== FILE: menu_edit.dfy ===
/**
 * Adding a root item and renaming an item in place, with the editing state
 * the page keeps (src/MenuItems/MenuItems.tsx, `addMenuItem`,
 * `editMenuItem`, `cancelEditing` and the edit button).
 */
module MenuEdit {
  import opened Wrappers
  import opened MenuStore
  import opened MenuView

  /** What the add form does: the write it issues (if any) and the text left in the input. */
  datatype Added = Added(write: Option<map<string, Record>>, input: string)

  /**
   * Adding an item: an empty input issues nothing; otherwise one record is
   * written under the freshly pushed key, holding only the title and that
   * key as id, and the input is cleared.
   */
  function AddMenuItem(input: string, newId: string): (a: Added)
    ensures a.input == ""
    ensures a.write.None? <==> input == ""
    ensures a.write.Some? ==>
      && a.write.value.Keys == {PathOf(newId)}
      && a.write.value[PathOf(newId)].id == newId
      && a.write.value[PathOf(newId)].title == input
      && IsRoot(a.write.value[PathOf(newId)])
      && ChildIds(a.write.value[PathOf(newId)]) == []
  {
    if input == "" then Added(None, input)
    else Added(Some(map[PathOf(newId) := Record(newId, input, None, None)]), "")
  }

  /** The ids of a node's children, when every child has one. */
  function ChildIdsOf(ts: seq<Tree>): (ids: Option<seq<string>>)
    ensures ids.Some? <==> forall j :: 0 <= j < |ts| ==> ts[j].id.Some?
    ensures ids.Some? ==> |ids.value| == |ts| && forall j :: 0 <= j < |ts| ==> Some(ids.value[j]) == ts[j].id
    decreases ts
  {
    if |ts| == 0 then Some([])
    else
      match (ts[0].id, ChildIdsOf(ts[1..]))
      case (Some(x), Some(rest)) => Some([x] + rest)
      case _ => None
  }

  /**
   * Renaming a view node: one record, under the node's id, carrying the
   * edited title, the node's `parentId` and the ids of its current children
   * in order. A node or child without an id makes the store client reject
   * the write (`None`).
   */
  function EditMenuItem(t: Tree, text: string): (w: Option<map<string, Record>>)
    ensures w.Some? <==> t.id.Some? && forall j :: 0 <= j < |t.children| ==> t.children[j].id.Some?
    ensures w.Some? ==>
      var p := PathOf(t.id.value);
      && w.value.Keys == {p}
      && w.value[p].id == t.id.value
      && w.value[p].title == text
      && w.value[p].parentId == t.parentId
      && w.value[p].children.Some?
      && |w.value[p].children.value| == |t.children|
      && forall j :: 0 <= j < |t.children| ==> Some(w.value[p].children.value[j]) == t.children[j].id
  {
    match (t.id, ChildIdsOf(t.children))
    case (Some(x), Some(ids)) => Some(map[PathOf(x) := Record(x, text, Some(ids), t.parentId)])
    case _ => None
  }

  /** Which node is being renamed, and the text typed so far. */
  datatype Editing = Editing(itemId: Option<string>, text: string)

  /** The state after cancelling (and the initial one): both fields empty. */
  const Idle: Editing := Editing(Some(""), "")

  /** The edit button: remember the node and start from its title. */
  function StartEditing(t: Tree): (e: Editing)
    ensures IsEdited(e, t) && e.text == t.title
  {
    Editing(t.id, t.title)
  }

  /** A node shows its edit controls when its id is the one remembered. */
  predicate IsEdited(e: Editing, t: Tree)
  {
    e.itemId == t.id
  }

  /** Cancelling forgets the node and the typed text. */
  function CancelEditing(e: Editing): (r: Editing)
    ensures r.itemId == Some("") && r.text == ""
    ensures forall t: Tree :: Truthy(t.id) ==> !IsEdited(r, t)
  {
    Idle
  }

  /** What confirming an edit does: the write, and the editing state afterwards. */
  datatype Committed = Committed(write: Option<map<string, Record>>, state: Editing)

  /**
   * Confirming: write the node under the typed title, then cancel editing.
   * A rejected write leaves the editing state as it was.
   */
  function CommitEdit(e: Editing, t: Tree): (c: Committed)
    ensures c.write.Some? ==> c.state == Idle
    ensures c.write.None? ==> c.state == e
    ensures c.write.Some? ==>
      t.id.Some? && c.write.value.Keys == {PathOf(t.id.value)} && c.write.value[PathOf(t.id.value)].title == e.text
    ensures c.write.None? <==> EditMenuItem(t, e.text).None?
  {
    var w := EditMenuItem(t, e.text);
    if w.Some? then Committed(w, CancelEditing(e)) else Committed(None, e)
  }

  /**
   * Renaming the materialised view of a stored record writes back that very
   * record with only the title changed (its `children` written out, an
   * absent list as the empty one).
   */
  lemma EditMaterialised(store: Store, rank: map<string, nat>, rec: Record, text: string)
    requires WellFormed(store, rank) && rec in store
    ensures Ranked(store, rank) && rec.id in rank
    ensures EditMenuItem(Build(store, rank, rec), text) ==
      Some(map[PathOf(rec.id) := rec.(title := text, children := Some(ChildIds(rec)))])
  {
    var t := Build(store, rank, rec);
    var ids := ChildIdsOf(t.children);
    assert ids.Some? by {
      forall j | 0 <= j < |t.children| ensures t.children[j].id.Some? {
        assert Mirrors(store, t.children[j], Lookup(store, ChildIds(rec)[j]).value);
      }
    }
    forall j | 0 <= j < |t.children| ensures ids.value[j] == ChildIds(rec)[j] {
      assert Mirrors(store, t.children[j], Lookup(store, ChildIds(rec)[j]).value);
    }
    assert ids.value == ChildIds(rec);
  }

  /**
   * Pressing edit on a materialised node and confirming without typing
   * rewrites the stored record unchanged (apart from an absent `children`
   * written as the empty list) and returns to the idle state.
   */
  lemma ConfirmUntouched(store: Store, rank: map<string, nat>, rec: Record)
    requires WellFormed(store, rank) && rec in store
    ensures Ranked(store, rank) && rec.id in rank
    ensures var t := Build(store, rank, rec);
      CommitEdit(StartEditing(t), t) ==
        Committed(Some(map[PathOf(rec.id) := rec.(children := Some(ChildIds(rec)))]), Idle)
  {
    EditMaterialised(store, rank, rec, rec.title);
  }

  /** Appending a record under a fresh id leaves every other lookup as it was. */
  lemma LookupAppend(store: Store, rec: Record, s: Store, x: string)
    requires s == store + [rec] && Lookup(store, rec.id).None?
    ensures Lookup(s, x) == (if x == rec.id then Some(rec) else Lookup(store, x))
  {
    if Lookup(store, x).Some? {
      var i :| 0 <= i < |store| && store[i] == Lookup(store, x).value;
      assert s[i] == store[i];
    } else if x == rec.id {
      assert s[|store|] == rec;
    }
  }

  /** Appending a childless, parentless record under a fresh id keeps a store well-formed. */
  lemma AppendWellFormed(store: Store, rank: map<string, nat>, rec: Record, s: Store)
    requires WellFormed(store, rank) && s == store + [rec]
    requires rec.id != "" && Lookup(store, rec.id).None? && rec.children == None && rec.parentId == None
    ensures WellFormed(s, rank[rec.id := 0])
  {
    var rank' := rank[rec.id := 0];
    assert forall i :: 0 <= i < |store| ==> s[i] == store[i] && store[i].id != rec.id;
    assert s[|store|] == rec;
    forall i | 0 <= i < |s| ensures s[i].id != "" && s[i].id in rank' {
    }
    forall i, c | 0 <= i < |s| && c in ChildIds(s[i])
      ensures Lookup(s, c).Some? && c in rank' && rank'[c] < rank'[s[i].id]
      ensures Lookup(s, c).value.parentId == Some(s[i].id)
    {
      assert i < |store| && c in ChildIds(store[i]);
      assert Lookup(store, c).Some? && c != rec.id;
      LookupAppend(store, rec, s, c);
    }
    forall i | 0 <= i < |s| && s[i].parentId.Some?
      ensures s[i].parentId.value != "" && Lookup(s, s[i].parentId.value).Some?
      ensures s[i].id in ChildIds(Lookup(s, s[i].parentId.value).value)
    {
      assert i < |store|;
      var q := s[i].parentId.value;
      assert Lookup(store, q).Some?;
      LookupAppend(store, rec, s, q);
    }
  }

  /**
   * Adding to a well-formed store a record under a fresh key keeps it
   * well-formed (the new record ranked lowest), and the new item appears as
   * an expanded root with no children.
   */
  lemma AddedIsRoot(store: Store, rank: map<string, nat>, input: string, newId: string)
    requires WellFormed(store, rank)
    requires input != "" && newId != "" && Lookup(store, newId).None?
    ensures var rec := AddMenuItem(input, newId).write.value[PathOf(newId)];
      var s := store + [rec];
      var rank' := rank[newId := 0];
      && DistinctIds(s)
      && WellFormed(s, rank')
      && rec in RootRecords(s)
      && Build(s, rank', rec) == Node(Some(newId), input, None, [], true)
  {
    var rec := Record(newId, input, None, None);
    assert forall i :: 0 <= i < |store| ==> store[i].id != newId;
    assert DistinctIds(store + [rec]);
    var s: Store := store + [rec];
    AppendWellFormed(store, rank, rec, s);
    assert rec in s;
  }
}

=== FILE: menu_flat.dfy ===
/**
 * The flat records a view tree denotes once every node carries its id:
 * each node becomes `{id, title, parentId, children}` with `parentId` the
 * id of its tree parent (absent for a root) and `children` the ids of its
 * tree children in order (absent when it has none). This is the reference
 * that the source's save walk is proved against.
 */
module MenuFlat {
  import opened Wrappers
  import opened MenuStore
  import opened MenuView

  /** The node's id as a string; the empty string stands for "no id". */
  function IdText(t: Tree): string
  {
    t.id.GetOr("")
  }

  /** The ids of a list of sibling nodes, in order. */
  function IdList(ts: seq<Tree>): (ids: seq<string>)
    ensures |ids| == |ts|
  {
    seq(|ts|, j requires 0 <= j < |ts| => IdText(ts[j]))
  }

  lemma IdListCons(t: Tree, ts: seq<Tree>)
    ensures IdList([t] + ts) == [IdText(t)] + IdList(ts)
  {
    var l := IdList([t] + ts);
    var r := [IdText(t)] + IdList(ts);
    assert |l| == |r|;
    forall j | 0 <= j < |l| ensures l[j] == r[j] {
      if j > 0 { assert ([t] + ts)[j] == ts[j - 1]; }
    }
  }

  /** The `children` field a node is saved with: absent when it has no children. */
  function ChildrenField(t: Tree): Option<seq<string>>
  {
    if |t.children| == 0 then None else Some(IdList(t.children))
  }

  /** The record a node denotes under the given tree parent. */
  function RecordAt(t: Tree, parent: Option<string>): Record
  {
    Record(IdText(t), t.title, ChildrenField(t), parent)
  }

  /** The records of the subtree `t`; the node's own record wins over its descendants'. */
  function Flat(t: Tree, parent: Option<string>): map<string, Record>
    decreases t, 1
  {
    FlatForest(t.children, Some(IdText(t)))[PathOf(IdText(t)) := RecordAt(t, parent)]
  }

  /** The records of a list of sibling subtrees; a later sibling wins. */
  function FlatForest(ts: seq<Tree>, parent: Option<string>): map<string, Record>
    decreases ts
  {
    if |ts| == 0 then map[] else Flat(ts[0], parent) + FlatForest(ts[1..], parent)
  }

  /** All ids of a forest, depth-first, parents before their children. */
  function Ids(ts: seq<Tree>): seq<string>
    decreases ts
  {
    if |ts| == 0 then [] else [IdText(ts[0])] + Ids(ts[0].children) + Ids(ts[1..])
  }

  /** A node of a forest together with the id of its tree parent. */
  datatype Visit = Visit(node: Tree, parent: Option<string>)

  /** All nodes of a forest with their parents, in the order of `Ids`. */
  function Visits(ts: seq<Tree>, parent: Option<string>): seq<Visit>
    decreases ts
  {
    if |ts| == 0 then []
    else [Visit(ts[0], parent)] + Visits(ts[0].children, Some(IdText(ts[0]))) + Visits(ts[1..], parent)
  }

  lemma VisitsUnfold(ts: seq<Tree>, parent: Option<string>)
    requires |ts| > 0
    ensures Visits(ts, parent)
            == [Visit(ts[0], parent)] + Visits(ts[0].children, Some(IdText(ts[0]))) + Visits(ts[1..], parent)
  {
  }

  lemma VisitsLength(ts: seq<Tree>, parent: Option<string>)
    requires |ts| > 0
    ensures |Visits(ts, parent)|
            == 1 + |Visits(ts[0].children, Some(IdText(ts[0])))| + |Visits(ts[1..], parent)|
  {
  }

  /**
   * Where the `i`-th visit of a forest comes from: its first node, that
   * node's subtree, or the later siblings.
   */
  lemma VisitsAt(ts: seq<Tree>, parent: Option<string>, i: int)
    requires |ts| > 0 && 0 <= i < |Visits(ts, parent)|
    ensures var va := Visits(ts[0].children, Some(IdText(ts[0])));
      var vb := Visits(ts[1..], parent);
      && |Visits(ts, parent)| == 1 + |va| + |vb|
      && Visits(ts, parent)[i] == (if i == 0 then Visit(ts[0], parent)
                                   else if i <= |va| then va[i - 1]
                                   else vb[i - 1 - |va|])
  {
    var va := Visits(ts[0].children, Some(IdText(ts[0])));
    var vb := Visits(ts[1..], parent);
    VisitsUnfold(ts, parent);
    ConcatAt(Visit(ts[0], parent), va, vb, i);
  }

  /** Where the `i`-th element of `[x] + a + b` comes from. */
  lemma ConcatAt<T>(x: T, a: seq<T>, b: seq<T>, i: int)
    requires 0 <= i < 1 + |a| + |b|
    ensures |[x] + a + b| == 1 + |a| + |b|
    ensures ([x] + a + b)[i] == (if i == 0 then x else if i <= |a| then a[i - 1] else b[i - 1 - |a|])
  {
  }

  /** Every node of the tree carries a non-empty id. */
  predicate Identified(t: Tree)
    decreases t
  {
    Truthy(t.id) && forall j :: 0 <= j < |t.children| ==> Identified(t.children[j])
  }

  /** No node's id reappears below it. */
  predicate SelfDisjoint(t: Tree)
    decreases t
  {
    && IdText(t) !in Ids(t.children)
    && forall j :: 0 <= j < |t.children| ==> SelfDisjoint(t.children[j])
  }

  predicate AllSelfDisjoint(ts: seq<Tree>)
  {
    forall j :: 0 <= j < |ts| ==> SelfDisjoint(ts[j])
  }

  lemma NoDuplicatesConcat<T>(a: seq<T>, b: seq<T>)
    ensures NoDuplicates(a + b) <==> NoDuplicates(a) && NoDuplicates(b) && forall x :: x in a ==> x !in b
  {
    if NoDuplicates(a + b) {
      forall i, j | 0 <= i < j < |a| ensures a[i] != a[j] {
        assert a[i] == (a + b)[i] && a[j] == (a + b)[j];
      }
      forall i, j | 0 <= i < j < |b| ensures b[i] != b[j] {
        assert b[i] == (a + b)[|a| + i] && b[j] == (a + b)[|a| + j];
      }
      forall i, j | 0 <= i < |a| && 0 <= j < |b| ensures a[i] != b[j] {
        assert a[i] == (a + b)[i] && b[j] == (a + b)[|a| + j];
      }
    }
    if NoDuplicates(a) && NoDuplicates(b) && forall x :: x in a ==> x !in b {
      forall i, j | 0 <= i < j < |a + b| ensures (a + b)[i] != (a + b)[j] {
        if j < |a| {
        } else if i >= |a| {
          assert (a + b)[i] == b[i - |a|] && (a + b)[j] == b[j - |a|];
        } else {
          assert (a + b)[i] in a && (a + b)[j] in b;
        }
      }
    }
  }

  /** `Visits` lists the nodes of `Ids`, position by position. */
  lemma {:induction false} VisitsMatchIds(ts: seq<Tree>, parent: Option<string>)
    ensures |Visits(ts, parent)| == |Ids(ts)|
    ensures forall i :: 0 <= i < |Ids(ts)| ==> IdText(Visits(ts, parent)[i].node) == Ids(ts)[i]
    decreases ts
  {
    if |ts| > 0 {
      VisitsMatchIds(ts[0].children, Some(IdText(ts[0])));
      VisitsMatchIds(ts[1..], parent);
    }
  }

  /** The paths a forest writes are exactly the paths of its ids. */
  lemma {:induction false} FlatForestKeys(ts: seq<Tree>, parent: Option<string>)
    ensures FlatForest(ts, parent).Keys == Paths(Ids(ts))
    decreases ts
  {
    if |ts| > 0 {
      FlatForestKeys(ts[0].children, Some(IdText(ts[0])));
      FlatForestKeys(ts[1..], parent);
      PathsConcat([IdText(ts[0])] + Ids(ts[0].children), Ids(ts[1..]));
      PathsConcat([IdText(ts[0])], Ids(ts[0].children));
    }
  }

  /** A forest writes nothing under the path of an id it does not hold. */
  lemma FlatForestMisses(ts: seq<Tree>, parent: Option<string>, x: string)
    requires x !in Ids(ts)
    ensures PathOf(x) !in FlatForest(ts, parent)
  {
    FlatForestKeys(ts, parent);
    forall y | y in Ids(ts) ensures PathOf(y) != PathOf(x) { PathOfInjective(y, x); }
  }

  /** A forest without repeated ids has no node repeated below itself. */
  lemma {:induction false} DistinctSelfDisjoint(ts: seq<Tree>)
    requires NoDuplicates(Ids(ts))
    ensures forall j :: 0 <= j < |ts| ==> SelfDisjoint(ts[j])
    decreases ts
  {
    if |ts| > 0 {
      NoDuplicatesConcat([IdText(ts[0])] + Ids(ts[0].children), Ids(ts[1..]));
      NoDuplicatesConcat([IdText(ts[0])], Ids(ts[0].children));
      DistinctSelfDisjoint(ts[0].children);
      DistinctSelfDisjoint(ts[1..]);
      forall j | 0 <= j < |ts| ensures SelfDisjoint(ts[j]) {
        if j > 0 {
          assert ts[j] == ts[1..][j - 1];
        }
      }
    }
  }

  /** The records a forest writes, for every node, as `RecordAt` of the node under its tree parent. */
  ghost predicate HoldsRecords(ts: seq<Tree>, parent: Option<string>)
  {
    forall i :: 0 <= i < |Visits(ts, parent)| ==> Written(FlatForest(ts, parent), Visits(ts, parent)[i])
  }

  /**
   * When no id repeats, the flat image of a forest holds, for every node,
   * exactly the record that node denotes under its tree parent.
   */
  lemma {:induction false} FlatForestRecords(ts: seq<Tree>, parent: Option<string>)
    requires NoDuplicates(Ids(ts))
    ensures HoldsRecords(ts, parent)
    decreases ts
  {
    if |ts| > 0 {
      var t := ts[0];
      var id := IdText(t);
      NoDuplicatesConcat([id] + Ids(t.children), Ids(ts[1..]));
      NoDuplicatesConcat([id], Ids(t.children));
      FlatForestRecords(t.children, Some(id));
      FlatForestRecords(ts[1..], parent);
      ConsHead(ts, parent);
      ConsChildren(ts, parent);
      ConsLater(ts, parent);
      HoldsRecordsCons(ts, parent);
    }
  }

  /** The record a visit denotes is written in `m` under the visited node's id. */
  ghost predicate Written(m: map<string, Record>, v: Visit)
  {
    PathOf(IdText(v.node)) in m && m[PathOf(IdText(v.node))] == RecordAt(v.node, v.parent)
  }

  /** The first node of a forest without repeated ids is written under its tree parent. */
  lemma ConsHead(ts: seq<Tree>, parent: Option<string>)
    requires |ts| > 0 && NoDuplicates(Ids(ts))
    ensures |Visits(ts, parent)| > 0 && Written(FlatForest(ts, parent), Visits(ts, parent)[0])
  {
    var t := ts[0];
    var id := IdText(t);
    var b := Ids(ts[1..]);
    NoDuplicatesConcat([id] + Ids(t.children), b);
    FlatForestKeys(ts[1..], parent);
    forall y | y in b ensures PathOf(y) != PathOf(id) { PathOfInjective(y, id); }
    assert FlatForest(ts, parent) == Flat(t, parent) + FlatForest(ts[1..], parent);
    assert Visits(ts, parent) == [Visit(t, parent)] + Visits(t.children, Some(id)) + Visits(ts[1..], parent);
  }

  /** What the first node's children write survives into the whole forest. */
  lemma ConsChildren(ts: seq<Tree>, parent: Option<string>)
    requires |ts| > 0 && NoDuplicates(Ids(ts))
    requires HoldsRecords(ts[0].children, Some(IdText(ts[0])))
    ensures var n := |Visits(ts[0].children, Some(IdText(ts[0])))|;
      n < |Visits(ts, parent)| &&
      forall i :: 1 <= i <= n ==> Written(FlatForest(ts, parent), Visits(ts, parent)[i])
  {
    var t := ts[0];
    var id := IdText(t);
    var a := Ids(t.children);
    var b := Ids(ts[1..]);
    NoDuplicatesConcat([id] + a, b);
    NoDuplicatesConcat([id], a);
    FlatForestKeys(ts[1..], parent);
    VisitsMatchIds(t.children, Some(id));
    var va := Visits(t.children, Some(id));
    var vs := Visits(ts, parent);
    var ffa := FlatForest(t.children, Some(id));
    var ff := FlatForest(ts, parent);
    assert ff == Flat(t, parent) + FlatForest(ts[1..], parent);
    assert Flat(t, parent) == ffa[PathOf(id) := RecordAt(t, parent)];
    VisitsLength(ts, parent);
    forall i | 0 <= i < |va| ensures Written(ff, va[i]) {
      var x := IdText(va[i].node);
      assert x == a[i];
      assert x in [id] + a && x != id;
      assert x !in b;
      forall y | y in b ensures PathOf(y) != PathOf(x) { PathOfInjective(y, x); }
      assert PathOf(x) !in FlatForest(ts[1..], parent);
      PathOfInjective(x, id);
      assert Written(ffa, va[i]);
      assert ff[PathOf(x)] == ffa[PathOf(x)];
    }
    forall i | 1 <= i <= |va| ensures Written(ff, vs[i]) {
      VisitsAt(ts, parent, i);
    }
  }

  /** What the later siblings write survives into the whole forest. */
  lemma ConsLater(ts: seq<Tree>, parent: Option<string>)
    requires |ts| > 0
    requires HoldsRecords(ts[1..], parent)
    ensures var n := |Visits(ts[0].children, Some(IdText(ts[0])))|;
      forall i :: 1 + n <= i < |Visits(ts, parent)| ==> Written(FlatForest(ts, parent), Visits(ts, parent)[i])
  {
    var t := ts[0];
    var va := Visits(t.children, Some(IdText(t)));
    var vb := Visits(ts[1..], parent);
    var vs := Visits(ts, parent);
    var ff := FlatForest(ts, parent);
    var ffb := FlatForest(ts[1..], parent);
    assert ff == Flat(ts[0], parent) + ffb;
    forall i | 1 + |va| <= i < |vs| ensures Written(ff, vs[i]) {
      VisitsAt(ts, parent, i);
      assert Written(ffb, vb[i - 1 - |va|]);
    }
  }

  /** The inductive step of FlatForestRecords: the first node, its subtree's nodes and the later nodes cover every visit. */
  lemma HoldsRecordsCons(ts: seq<Tree>, parent: Option<string>)
    requires |ts| > 0
    requires |Visits(ts, parent)| > 0 && Written(FlatForest(ts, parent), Visits(ts, parent)[0])
    requires var n := |Visits(ts[0].children, Some(IdText(ts[0])))|;
      n < |Visits(ts, parent)| &&
      forall i :: 1 <= i <= n ==> Written(FlatForest(ts, parent), Visits(ts, parent)[i])
    requires var n := |Visits(ts[0].children, Some(IdText(ts[0])))|;
      forall i :: 1 + n <= i < |Visits(ts, parent)| ==> Written(FlatForest(ts, parent), Visits(ts, parent)[i])
    ensures HoldsRecords(ts, parent)
  {
  }
}

=== FILE: menu_remove.dfy ===
/**
 * Deleting a menu item (src/MenuItems/MenuItems.tsx, `removeMenuItem` with
 * its inner `getChildrenUpdates`): every stored record is rewritten with the
 * deleted id filtered out of its `children`, the deleted record is set to
 * null, and so is every node below the deleted one in the view.
 */
module MenuRemove {
  import opened Wrappers
  import opened MenuStore
  import opened MenuView
  import opened MenuFlat

  /** A multi-path update as `db.ref().update` takes it: None is a null (a deletion). */
  type Updates = map<string, Option<Record>>

  /** Every record an update writes sits under its own id. */
  predicate KeepsIds(u: Updates)
  {
    forall p :: p in u && u[p].Some? ==> p == PathOf(u[p].value.id)
  }

  /** `ids.filter(id => id !== target)`: drop every occurrence of the target, keep the rest in order. */
  function FilterOut(ids: seq<string>, target: Option<string>): (r: seq<string>)
    ensures forall x :: x in r <==> x in ids && Some(x) != target
    ensures |r| <= |ids|
    ensures target.None? ==> r == ids
  {
    if |ids| == 0 then []
    else (if Some(ids[0]) == target then [] else [ids[0]]) + FilterOut(ids[1..], target)
  }

  /** Filtering distributes over concatenation, so the kept ids stay in their order. */
  lemma {:induction false} FilterOutAppend(a: seq<string>, b: seq<string>, target: Option<string>)
    ensures FilterOut(a + b, target) == FilterOut(a, target) + FilterOut(b, target)
    decreases a
  {
    if |a| == 0 {
      assert a + b == b;
    } else {
      assert (a + b)[0] == a[0] && (a + b)[1..] == a[1..] + b;
      FilterOutAppend(a[1..], b, target);
    }
  }

  /** Filtering a list without repeated ids keeps it without repeats. */
  lemma {:induction false} FilterOutNoDuplicates(ids: seq<string>, target: Option<string>)
    requires NoDuplicates(ids)
    ensures NoDuplicates(FilterOut(ids, target))
    decreases ids
  {
    if |ids| > 0 {
      assert NoDuplicates(ids[1..]) by {
        forall i, j | 0 <= i < j < |ids| - 1 ensures ids[1..][i] != ids[1..][j] {
          assert ids[1..][i] == ids[i + 1] && ids[1..][j] == ids[j + 1];
        }
      }
      FilterOutNoDuplicates(ids[1..], target);
      assert ids[0] !in ids[1..] by {
        forall j | 0 <= j < |ids| - 1 ensures ids[1..][j] != ids[0] { assert ids[1..][j] == ids[j + 1]; }
      }
      NoDuplicatesConcat(if Some(ids[0]) == target then [] else [ids[0]], FilterOut(ids[1..], target));
    }
  }

  /** `{...dbItem, children: dbItem.children?.filter(...) || []}`. */
  function Detached(rec: Record, target: Option<string>): (r: Record)
    ensures r.id == rec.id && r.title == rec.title && r.parentId == rec.parentId
    ensures r.children.Some?
  {
    rec.(children := Some(FilterOut(ChildIds(rec), target)))
  }

  /** What the first loop of `removeMenuItem` writes for one stored record. */
  function Rewritten(rec: Record, target: Option<string>): Option<Record>
  {
    if Some(rec.id) == target then None else Some(Detached(rec, target))
  }

  /** The update paths of every stored record. */
  function StorePaths(store: Store): set<string>
  {
    set i | 0 <= i < |store| :: PathOf(store[i].id)
  }

  /** The paths of a store are those of all but its last record, plus the last record's. */
  lemma StorePathsSnoc(store: Store)
    requires |store| > 0
    ensures StorePaths(store) == StorePaths(store[..|store| - 1]) + {PathOf(store[|store| - 1].id)}
  {
    var n := |store|;
    var init: Store := store[..n - 1];
    forall p | p in StorePaths(store) ensures p in StorePaths(init) + {PathOf(store[n - 1].id)} {
      var i :| 0 <= i < n && p == PathOf(store[i].id);
      if i < n - 1 {
        assert init[i] == store[i];
      }
    }
    forall p | p in StorePaths(init) ensures p in StorePaths(store) {
      var i :| 0 <= i < n - 1 && p == PathOf(init[i].id);
      assert init[i] == store[i];
    }
  }

  /** The first loop of `removeMenuItem`, over the records in store order. */
  function RewriteStore(store: Store, target: Option<string>): (u: Updates)
    ensures u.Keys == StorePaths(store)
    ensures forall i :: 0 <= i < |store| ==> u[PathOf(store[i].id)] == Rewritten(store[i], target)
    decreases |store|
  {
    if |store| == 0 then map[]
    else
      var last := store[|store| - 1];
      var init: Store := store[..|store| - 1];
      var u := RewriteStore(init, target);
      RewriteSnoc(store, init, target, u);
      u[PathOf(last.id) := Rewritten(last, target)]
  }

  /** The step of RewriteStore: writing the last record extends what the loop wrote for the others. */
  lemma RewriteSnoc(store: Store, init: Store, target: Option<string>, u: Updates)
    requires |store| > 0 && init == store[..|store| - 1]
    requires u.Keys == StorePaths(init)
    requires forall i :: 0 <= i < |init| ==> u[PathOf(init[i].id)] == Rewritten(init[i], target)
    ensures var last := store[|store| - 1];
      var u' := u[PathOf(last.id) := Rewritten(last, target)];
      && u'.Keys == StorePaths(store)
      && forall i :: 0 <= i < |store| ==> u'[PathOf(store[i].id)] == Rewritten(store[i], target)
  {
    var n := |store|;
    var last := store[n - 1];
    var u' := u[PathOf(last.id) := Rewritten(last, target)];
    StorePathsSnoc(store);
    forall i | 0 <= i < n ensures u'[PathOf(store[i].id)] == Rewritten(store[i], target) {
      if i < n - 1 {
        assert init[i] == store[i] && store[i].id != last.id;
        PathOfInjective(store[i].id, last.id);
      }
    }
  }

  /**
   * The keys `getChildrenUpdates` nulls for the nodes `ts` and everything
   * below them, depth-first: `menuItems/${child.id}` of each node.
   */
  function CascadeKeys(ts: seq<Tree>): seq<string>
    decreases ts
  {
    if |ts| == 0 then [] else [KeyText(ts[0].id)] + CascadeKeys(ts[0].children) + CascadeKeys(ts[1..])
  }

  /** `getChildrenUpdates` over the nodes `ts`: every cascade key set to null. */
  function Tombstones(ts: seq<Tree>): (u: Updates)
    ensures u.Keys == Paths(CascadeKeys(ts))
    ensures forall p :: p in u ==> u[p] == None
    decreases ts
  {
    if |ts| == 0 then map[]
    else
      var k := KeyText(ts[0].id);
      var a := Tombstones(ts[0].children);
      var b := Tombstones(ts[1..]);
      NullsMerge(k, a, b, CascadeKeys(ts[0].children), CascadeKeys(ts[1..]));
      map[PathOf(k) := None] + a + b
  }

  /** The step of Tombstones: nulling one key, then two cascades, nulls the paths of all their keys. */
  lemma NullsMerge(k: string, a: Updates, b: Updates, ka: seq<string>, kb: seq<string>)
    requires a.Keys == Paths(ka) && forall p :: p in a ==> a[p] == None
    requires b.Keys == Paths(kb) && forall p :: p in b ==> b[p] == None
    ensures var u := map[PathOf(k) := None] + a + b;
      u.Keys == Paths([k] + ka + kb) && forall p :: p in u ==> u[p] == None
  {
    PathsConcat([k] + ka, kb);
    PathsConcat([k], ka);
  }

  /** The cascade leaves alone the path of every id it does not reach. */
  lemma TombstonesMiss(ts: seq<Tree>, y: string)
    requires y !in CascadeKeys(ts)
    ensures PathOf(y) !in Tombstones(ts)
  {
    forall x | x in CascadeKeys(ts) ensures PathOf(x) != PathOf(y) {
      PathOfInjective(x, y);
    }
  }

  /** For a view whose nodes all carry ids, the cascade keys are its ids. */
  lemma {:induction false} CascadeKeysAreIds(ts: seq<Tree>)
    requires forall j :: 0 <= j < |ts| ==> Identified(ts[j])
    ensures CascadeKeys(ts) == Ids(ts)
    decreases ts
  {
    if |ts| > 0 {
      CascadeKeysAreIds(ts[0].children);
      CascadeKeysAreIds(ts[1..]);
    }
  }

  /**
   * `removeMenuItem(target)` against the live store: the target's record
   * and every node below the target in the view are set to null; every other
   * stored record is written back unchanged except that the target id is
   * filtered out of its `children` (an absent list becoming empty).
   */
  function RemoveMenuItem(store: Store, target: Tree): (u: Updates)
    ensures u.Keys == StorePaths(store) + Paths(CascadeKeys(target.children))
    ensures forall i :: 0 <= i < |store| && Some(store[i].id) == target.id ==> u[PathOf(store[i].id)] == None
    ensures forall x :: x in CascadeKeys(target.children) ==> u[PathOf(x)] == None
    ensures forall i :: 0 <= i < |store| && Some(store[i].id) != target.id && store[i].id !in CascadeKeys(target.children) ==>
      u[PathOf(store[i].id)] == Some(Detached(store[i], target.id))
    ensures KeepsIds(u)
  {
    var rewrite := RewriteStore(store, target.id);
    var tombs := Tombstones(target.children);
    forall i | 0 <= i < |store| && store[i].id !in CascadeKeys(target.children)
      ensures PathOf(store[i].id) !in tombs
    {
      TombstonesMiss(target.children, store[i].id);
    }
    rewrite + tombs
  }
}

=== FILE: menu_remove_safety.dfy ===
/**
 * What a deletion leaves behind. Applying the update of `removeMenuItem`,
 * computed for a freshly materialised node, to a well-formed store removes
 * exactly that node's subtree and leaves a well-formed store: no survivor
 * names a deleted child or a deleted parent.
 */
module MenuRemoveSafety {
  import opened Wrappers
  import opened MenuStore
  import opened MenuView
  import opened MenuFlat
  import opened MenuRemove
  import opened MenuRoundTrip

  /** What an update leaves of one stored record: deleted, replaced, or untouched. */
  function After(rec: Record, u: Updates): Option<Record>
  {
    var p := PathOf(rec.id);
    if p in u then u[p] else Some(rec)
  }

  /**
   * The stored records after applying `u` (writes under keys with no stored
   * record, which a deletion only nulls, are not modelled).
   */
  function Apply(store: Store, u: Updates): (s: Store)
    requires KeepsIds(u)
    ensures forall k :: 0 <= k < |s| ==> Lookup(store, s[k].id).Some?
    decreases |store|
  {
    if |store| == 0 then []
    else
      var head := After(store[0], u);
      var rest := Apply(store[1..], u);
      PathOfInjective(head.GetOr(store[0]).id, store[0].id);
      assert forall k :: 0 <= k < |rest| ==> rest[k].id != store[0].id;
      (if head.Some? then [head.value] else []) + rest
  }

  /** Looking a record up after the update finds what the update left of it. */
  lemma {:induction false} LookupApply(store: Store, u: Updates, x: string)
    requires KeepsIds(u)
    ensures Lookup(Apply(store, u), x) == (if Lookup(store, x).Some? then After(Lookup(store, x).value, u) else None)
    decreases |store|
  {
    if |store| > 0 {
      LookupApply(store[1..], u, x);
      var head := After(store[0], u);
      var rest := Apply(store[1..], u);
      PathOfInjective(head.GetOr(store[0]).id, store[0].id);
      if head.Some? {
        var s := [head.value] + rest;
        assert Apply(store, u) == s;
        assert s[1..] == rest;
        assert s[0].id == store[0].id;
      } else {
        assert Apply(store, u) == rest;
      }
    }
  }

  /** A set of stored ids closed downwards, whose members other than `top` have their parent in it. */
  ghost predicate Subtree(store: Store, top: string, dead: seq<string>)
  {
    && top in dead
    && (forall x :: x in dead ==> Lookup(store, x).Some?)
    && (forall x :: x in dead && x != top ==>
          Lookup(store, x).value.parentId.Some? && Lookup(store, x).value.parentId.value in dead)
    && (forall x, c :: x in dead && c in ChildIds(Lookup(store, x).value) ==> c in dead)
  }

  /**
   * Removing a subtree and filtering its top out of every `children` list
   * keeps a store well-formed.
   */
  lemma SurvivorsWellFormed(store: Store, rank: map<string, nat>, top: string, dead: seq<string>, s: Store)
    requires WellFormed(store, rank) && Subtree(store, top, dead)
    requires forall x :: Lookup(s, x) == (if Lookup(store, x).Some? && x !in dead
      then Some(Detached(Lookup(store, x).value, Some(top))) else None)
    ensures WellFormed(s, rank)
  {
    forall k | 0 <= k < |s|
      ensures Lookup(store, s[k].id).Some? && s[k].id !in dead
      ensures s[k] == Detached(Lookup(store, s[k].id).value, Some(top))
    {
      assert Lookup(s, s[k].id) == Some(s[k]);
    }
    forall k | 0 <= k < |s| ensures s[k].id != "" && s[k].id in rank {
      var i :| 0 <= i < |store| && store[i] == Lookup(store, s[k].id).value;
    }
    forall k, c | 0 <= k < |s| && c in ChildIds(s[k])
      ensures Lookup(s, c).Some? && c in rank && rank[c] < rank[s[k].id] && Lookup(s, c).value.parentId == Some(s[k].id)
    {
      var p := Lookup(store, s[k].id).value;
      var i :| 0 <= i < |store| && store[i] == p;
      assert c in ChildIds(store[i]) && c != top;
      assert Lookup(store, c).value.parentId == Some(p.id);
    }
    forall k | 0 <= k < |s| && s[k].parentId.Some?
      ensures s[k].parentId.value != ""
      ensures Lookup(s, s[k].parentId.value).Some?
      ensures s[k].id in ChildIds(Lookup(s, s[k].parentId.value).value)
    {
      var p := Lookup(store, s[k].id).value;
      var i :| 0 <= i < |store| && store[i] == p;
      var q := p.parentId.value;
      assert Lookup(store, q).Some? && p.id in ChildIds(Lookup(store, q).value);
      assert q !in dead;
    }
    forall k | 0 <= k < |s| ensures NoDuplicates(ChildIds(s[k])) {
      var p := Lookup(store, s[k].id).value;
      var i :| 0 <= i < |store| && store[i] == p;
      FilterOutNoDuplicates(ChildIds(p), Some(top));
    }
  }

  /** The view of a stored record is, as a one-tree forest, the view of its id. */
  lemma ViewMirrors(store: Store, rank: map<string, nat>, trec: Record)
    requires WellFormed(store, rank) && trec in store
    ensures Ranked(store, rank) && trec.id in rank
    ensures MirrorForest(store, [Build(store, rank, trec)], [trec.id])
    ensures trec.id in Ids([Build(store, rank, trec)])
  {
    var t := Build(store, rank, trec);
    assert Lookup(store, trec.id) == Some(trec);
    assert Ids([t]) == [trec.id] + Ids(t.children) + Ids([]);
  }

  /** The ids of a materialised view form a subtree of the store. */
  lemma ViewIsSubtree(store: Store, rank: map<string, nat>, trec: Record)
    requires WellFormed(store, rank) && trec in store
    ensures Ranked(store, rank) && trec.id in rank
    ensures var t := Build(store, rank, trec);
      && Subtree(store, trec.id, Ids([t]))
      && (forall j :: 0 <= j < |t.children| ==> Identified(t.children[j]))
  {
    ViewMirrors(store, rank, trec);
    var t := Build(store, rank, trec);
    var ids1 := [trec.id];
    MirrorChildren(store, t, trec);
    ForestIdentified(store, rank, t.children, ChildIds(trec));
    ForestRanks(store, rank, [t], ids1, rank[trec.id] + 1);
    ForestParents(store, rank, [t], ids1);
    ForestClosed(store, rank, [t], ids1);
  }

  /** What the deletion update of an identified view leaves of one stored record. */
  lemma AfterRemove(store: Store, t: Tree, x: string)
    requires t.id.Some? && forall j :: 0 <= j < |t.children| ==> Identified(t.children[j])
    requires Lookup(store, x).Some?
    ensures After(Lookup(store, x).value, RemoveMenuItem(store, t)) ==
      if x in Ids([t]) then None else Some(Detached(Lookup(store, x).value, t.id))
  {
    var u := RemoveMenuItem(store, t);
    var i :| 0 <= i < |store| && store[i] == Lookup(store, x).value;
    CascadeKeysAreIds(t.children);
    assert Ids([t]) == [t.id.value] + Ids(t.children) + Ids([]);
    assert PathOf(store[i].id) in u;
  }

  /**
   * Deleting the freshly materialised view of `trec` removes exactly the
   * records of that view, detaches `trec` from its parent's `children`,
   * leaves every other record as it was, and keeps the store well-formed.
   */
  lemma RemovePreservesWellFormed(store: Store, rank: map<string, nat>, trec: Record)
    requires WellFormed(store, rank) && trec in store
    ensures Ranked(store, rank) && trec.id in rank
    ensures var t := Build(store, rank, trec);
      var s := Apply(store, RemoveMenuItem(store, t));
      && (forall x :: x in Ids([t]) ==> Lookup(s, x).None?)
      && (forall x :: x !in Ids([t]) && Lookup(store, x).Some? ==>
            Lookup(s, x) == Some(Detached(Lookup(store, x).value, Some(trec.id))))
      && WellFormed(s, rank)
  {
    ViewIsSubtree(store, rank, trec);
    var t := Build(store, rank, trec);
    var u := RemoveMenuItem(store, t);
    var s := Apply(store, u);
    var dead := Ids([t]);
    forall x
      ensures Lookup(s, x) ==
        (if Lookup(store, x).Some? && x !in dead then Some(Detached(Lookup(store, x).value, Some(trec.id))) else None)
    {
      LookupApply(store, u, x);
      if Lookup(store, x).Some? {
        AfterRemove(store, t, x);
      }
    }
    SurvivorsWellFormed(store, rank, trec.id, dead, s);
  }
}

=== FILE: menu_round_trip.dfy ===
/**
 * Materialising a consistent store and saving the untouched view writes
 * every stored record back with its id, title, `parentId` and `children`,
 * an empty list written as absent (src/MenuItems/MenuItems.tsx, the second
 * effect followed by `saveOrder`).
 */
module MenuRoundTrip {
  import opened Wrappers
  import opened MenuStore
  import opened MenuView
  import opened MenuFlat
  import opened MenuSave

  /** `ts` are, position by position, the views of the records named by `ids`. */
  ghost predicate MirrorForest(store: Store, ts: seq<Tree>, ids: seq<string>)
  {
    && |ts| == |ids|
    && forall j :: 0 <= j < |ts| ==>
         Lookup(store, ids[j]).Some? && Mirrors(store, ts[j], Lookup(store, ids[j]).value)
  }

  /** Every record named by `ids` has the parent `parent`. */
  ghost predicate ParentsAre(store: Store, ids: seq<string>, parent: Option<string>)
  {
    forall j :: 0 <= j < |ids| ==> Lookup(store, ids[j]).Some? && Lookup(store, ids[j]).value.parentId == parent
  }

  /** A record's view is followed, one level down, by the views of its children. */
  lemma MirrorChildren(store: Store, t: Tree, rec: Record)
    requires Mirrors(store, t, rec)
    ensures MirrorForest(store, t.children, ChildIds(rec))
  {
  }

  lemma MirrorForestTail(store: Store, ts: seq<Tree>, ids: seq<string>)
    requires MirrorForest(store, ts, ids) && |ts| > 0
    ensures MirrorForest(store, ts[1..], ids[1..])
  {
    forall j | 0 <= j < |ts| - 1
      ensures Lookup(store, ids[1..][j]).Some? && Mirrors(store, ts[1..][j], Lookup(store, ids[1..][j]).value)
    {
      assert ts[1..][j] == ts[j + 1] && ids[1..][j] == ids[j + 1];
    }
  }

  /** In a well-formed store the children of a record all point back to it. */
  lemma ChildrenPointBack(store: Store, rank: map<string, nat>, rec: Record)
    requires WellFormed(store, rank) && rec in store
    ensures ParentsAre(store, ChildIds(rec), Some(rec.id))
    ensures forall c :: c in ChildIds(rec) ==> c in rank && rank[c] < rank[rec.id]
    ensures NoDuplicates(ChildIds(rec))
  {
    var i :| 0 <= i < |store| && store[i] == rec;
    forall j | 0 <= j < |ChildIds(rec)|
      ensures Lookup(store, ChildIds(rec)[j]).Some? && Lookup(store, ChildIds(rec)[j]).value.parentId == Some(rec.id)
    {
      assert ChildIds(rec)[j] in ChildIds(store[i]);
    }
  }

  /** Every id of the view of a ranked forest is stored and ranked below `bound`. */
  lemma {:induction false} ForestRanks(store: Store, rank: map<string, nat>, ts: seq<Tree>, ids: seq<string>, bound: nat)
    requires WellFormed(store, rank)
    requires MirrorForest(store, ts, ids)
    requires forall j :: 0 <= j < |ids| ==> ids[j] in rank && rank[ids[j]] < bound
    ensures forall x :: x in Ids(ts) ==> Lookup(store, x).Some? && x in rank && rank[x] < bound
    decreases ts
  {
    if |ts| > 0 {
      var rec := Lookup(store, ids[0]).value;
      MirrorChildren(store, ts[0], rec);
      ChildrenPointBack(store, rank, rec);
      ForestRanks(store, rank, ts[0].children, ChildIds(rec), rank[rec.id]);
      MirrorForestTail(store, ts, ids);
      ForestRanks(store, rank, ts[1..], ids[1..], bound);
    }
  }

  /**
   * Climbing: every id of the view of a forest is one of its roots or has a
   * `parentId` that is itself an id of the view.
   */
  lemma {:induction false} ForestParents(store: Store, rank: map<string, nat>, ts: seq<Tree>, ids: seq<string>)
    requires WellFormed(store, rank)
    requires MirrorForest(store, ts, ids)
    ensures forall x :: x in Ids(ts) ==>
      Lookup(store, x).Some? &&
      (x in ids || (Lookup(store, x).value.parentId.Some? && Lookup(store, x).value.parentId.value in Ids(ts)))
    decreases ts
  {
    if |ts| > 0 {
      var rec := Lookup(store, ids[0]).value;
      MirrorChildren(store, ts[0], rec);
      ChildrenPointBack(store, rank, rec);
      ForestParents(store, rank, ts[0].children, ChildIds(rec));
      MirrorForestTail(store, ts, ids);
      ForestParents(store, rank, ts[1..], ids[1..]);
      assert Ids(ts) == [rec.id] + Ids(ts[0].children) + Ids(ts[1..]);
      forall x | x in ids[1..] ensures x in ids { }
    }
  }

  /** A well-formed store ranks a record below the parent it names. */
  lemma ParentRanksHigher(store: Store, rank: map<string, nat>, x: string)
    requires WellFormed(store, rank)
    requires Lookup(store, x).Some? && Lookup(store, x).value.parentId.Some?
    ensures var q := Lookup(store, x).value.parentId.value;
      && Lookup(store, q).Some?
      && x in ChildIds(Lookup(store, q).value)
      && x in rank && q in rank && rank[x] < rank[q]
  {
    var q := Lookup(store, x).value.parentId.value;
    var i :| 0 <= i < |store| && store[i] == Lookup(store, x).value;
    var k :| 0 <= k < |store| && store[k] == Lookup(store, q).value;
    assert x in ChildIds(store[k]);
  }

  function RankOf(rank: map<string, nat>, x: string): nat
  {
    if x in rank then rank[x] else 0
  }

  /**
   * Refutation: the view of a record `rec1` and the views of its later
   * siblings `ids2` (all with the same parent) share no node.
   */
  lemma {:induction false} NoSharedNode(store: Store, rank: map<string, nat>, x: string,
                                        t1: Tree, rec1: Record, ts2: seq<Tree>, ids2: seq<string>,
                                        parent: Option<string>)
    requires WellFormed(store, rank)
    requires rec1 in store && Mirrors(store, t1, rec1) && rec1.parentId == parent
    requires MirrorForest(store, ts2, ids2) && ParentsAre(store, ids2, parent)
    requires rec1.id !in ids2
    requires x in Ids([t1]) && x in Ids(ts2)
    ensures false
    decreases RankOf(rank, rec1.id) + 1 - RankOf(rank, x)
  {
    var ids1 := [rec1.id];
    assert MirrorForest(store, [t1], ids1);
    assert rec1.id in rank;
    ForestRanks(store, rank, [t1], ids1, rank[rec1.id] + 1);
    ForestParents(store, rank, [t1], ids1);
    ForestParents(store, rank, ts2, ids2);
    var rx := Lookup(store, x).value;
    if x == rec1.id {
      var q2 := rx.parentId.value;
      forall j | 0 <= j < |ids2| ensures ids2[j] in rank && rank[ids2[j]] < rank[q2] {
        ParentRanksHigher(store, rank, ids2[j]);
      }
      ForestRanks(store, rank, ts2, ids2, rank[q2]);
    } else if x in ids2 {
      ParentRanksHigher(store, rank, rec1.id);
    } else {
      var q := rx.parentId.value;
      ParentRanksHigher(store, rank, x);
      NoSharedNode(store, rank, q, t1, rec1, ts2, ids2, parent);
    }
  }

  /**
   * The view of sibling records that share a parent and are listed without
   * repetition never repeats an id.
   */
  lemma {:induction false} ForestDistinct(store: Store, rank: map<string, nat>, ts: seq<Tree>, ids: seq<string>,
                                          parent: Option<string>)
    requires WellFormed(store, rank)
    requires MirrorForest(store, ts, ids) && ParentsAre(store, ids, parent) && NoDuplicates(ids)
    ensures NoDuplicates(Ids(ts))
    decreases ts
  {
    if |ts| > 0 {
      var rec := Lookup(store, ids[0]).value;
      var t := ts[0];
      var a := Ids(t.children);
      var b := Ids(ts[1..]);
      MirrorChildren(store, t, rec);
      ChildrenPointBack(store, rank, rec);
      ForestDistinct(store, rank, t.children, ChildIds(rec), Some(rec.id));
      MirrorForestTail(store, ts, ids);
      assert NoDuplicates(ids[1..]) by {
        forall i, j | 0 <= i < j < |ids| - 1 ensures ids[1..][i] != ids[1..][j] {
          assert ids[1..][i] == ids[i + 1] && ids[1..][j] == ids[j + 1];
        }
      }
      assert ParentsAre(store, ids[1..], parent) by {
        forall j | 0 <= j < |ids| - 1 ensures ids[1..][j] == ids[j + 1] { }
      }
      ForestDistinct(store, rank, ts[1..], ids[1..], parent);
      ForestRanks(store, rank, t.children, ChildIds(rec), rank[rec.id]);
      assert rec.id !in a;
      assert rec.id !in ids[1..] by {
        forall j | 0 <= j < |ids| - 1 ensures ids[1..][j] != ids[0] { assert ids[1..][j] == ids[j + 1]; }
      }
      assert Ids([t]) == [rec.id] + a + Ids([]);
      forall x | x in [rec.id] + a && x in b
        ensures false
      {
        NoSharedNode(store, rank, x, t, rec, ts[1..], ids[1..], parent);
      }
      NoDuplicatesConcat([rec.id], a);
      NoDuplicatesConcat([rec.id] + a, b);
    }
  }

  /** Every node of a materialised view carries its record's non-empty id. */
  lemma {:induction false} ForestIdentified(store: Store, rank: map<string, nat>, ts: seq<Tree>, ids: seq<string>)
    requires WellFormed(store, rank)
    requires MirrorForest(store, ts, ids)
    ensures forall j :: 0 <= j < |ts| ==> Identified(ts[j])
    decreases ts
  {
    forall j | 0 <= j < |ts| ensures Identified(ts[j]) {
      var rec := Lookup(store, ids[j]).value;
      MirrorChildren(store, ts[j], rec);
      ForestIdentified(store, rank, ts[j].children, ChildIds(rec));
    }
  }

  /** A visited node is the view of the stored record with its id, and that record names the visit's parent. */
  ghost predicate MirroredVisit(store: Store, v: Visit)
  {
    && Lookup(store, IdText(v.node)).Some?
    && Mirrors(store, v.node, Lookup(store, IdText(v.node)).value)
    && v.parent == Lookup(store, IdText(v.node)).value.parentId
  }

  /**
   * Every node of a materialised view, with the parent the view gives it,
   * is the view of a stored record that names that same parent.
   */
  lemma {:induction false} VisitsMirror(store: Store, rank: map<string, nat>, ts: seq<Tree>, ids: seq<string>,
                                        parent: Option<string>)
    requires WellFormed(store, rank)
    requires MirrorForest(store, ts, ids) && ParentsAre(store, ids, parent)
    ensures forall i :: 0 <= i < |Visits(ts, parent)| ==> MirroredVisit(store, Visits(ts, parent)[i])
    decreases ts
  {
    if |ts| > 0 {
      var rec := Lookup(store, ids[0]).value;
      MirrorChildren(store, ts[0], rec);
      ChildrenPointBack(store, rank, rec);
      VisitsMirror(store, rank, ts[0].children, ChildIds(rec), Some(rec.id));
      MirrorForestTail(store, ts, ids);
      assert ParentsAre(store, ids[1..], parent) by {
        forall j | 0 <= j < |ids| - 1 ensures ids[1..][j] == ids[j + 1] { }
      }
      VisitsMirror(store, rank, ts[1..], ids[1..], parent);
      var vs := Visits(ts, parent);
      forall i | 0 <= i < |vs| ensures MirroredVisit(store, vs[i]) {
        VisitsAt(ts, parent, i);
      }
    }
  }

  /** The record as `saveOrder` rewrites it: an empty `children` list becomes absent. */
  function Normalised(rec: Record): (r: Record)
    ensures r.id == rec.id && r.title == rec.title && r.parentId == rec.parentId
    ensures r.children.Some? ==> r.children == rec.children && |r.children.value| > 0
    ensures ChildIds(r) == ChildIds(rec)
  {
    rec.(children := if |ChildIds(rec)| == 0 then None else rec.children)
  }

  /** The record a view node denotes under its stored parent is the stored record, normalised. */
  lemma MirrorsRecordAt(store: Store, t: Tree, rec: Record)
    requires Mirrors(store, t, rec)
    ensures RecordAt(t, rec.parentId) == Normalised(rec)
  {
    var ids := IdList(t.children);
    forall j | 0 <= j < |ids| ensures ids[j] == ChildIds(rec)[j] {
      assert Mirrors(store, t.children[j], Lookup(store, ChildIds(rec)[j]).value);
    }
    assert ids == ChildIds(rec);
  }

  /**
   * Round trip: materialise a well-formed store and save the untouched view.
   * The save succeeds without drawing keys, writes exactly the records the
   * view reaches, which are all the stored records, and rewrites each with its stored id, title, `parentId`
   * and ordered `children` (an empty list becoming absent).
   */
  lemma RoundTrip(store: Store, rank: map<string, nat>, gen: KeySupply)
    requires WellFormed(store, rank)
    ensures Ranked(store, rank)
    ensures var f := Materialise(store, rank);
      && SaveOrder(gen, f).Some?
      && SaveOrder(gen, f).value.Keys == Paths(Ids(f))
      && forall x :: x in Ids(f) ==>
           Lookup(store, x).Some? && SaveOrder(gen, f).value[PathOf(x)] == Normalised(Lookup(store, x).value)
    ensures var f := Materialise(store, rank);
      forall i :: 0 <= i < |store| ==> store[i].id in Ids(f)
  {
    SavesReached(store, rank, gen);
    MaterialiseReachesAll(store, rank);
  }

  /** The part of RoundTrip about the records the view reaches. */
  lemma SavesReached(store: Store, rank: map<string, nat>, gen: KeySupply)
    requires WellFormed(store, rank)
    ensures Ranked(store, rank)
    ensures var f := Materialise(store, rank);
      && SaveOrder(gen, f).Some?
      && SaveOrder(gen, f).value.Keys == Paths(Ids(f))
      && forall x :: x in Ids(f) ==>
           Lookup(store, x).Some? && SaveOrder(gen, f).value[PathOf(x)] == Normalised(Lookup(store, x).value)
  {
    var f := Materialise(store, rank);
    var roots := RootRecords(store);
    var ids := seq(|roots|, k requires 0 <= k < |roots| => roots[k].id);
    forall k | 0 <= k < |ids| ensures Lookup(store, ids[k]) == Some(roots[k]) && roots[k].parentId == None {
      assert roots[k] in store;
    }
    assert MirrorForest(store, f, ids);
    assert ParentsAre(store, ids, None);
    assert NoDuplicates(ids);
    ForestIdentified(store, rank, f, ids);
    assert AssignRoots(gen, f, 0) == Some((f, 0));
    ForestDistinct(store, rank, f, ids, None);
    SaveOrderRecords(gen, f);
    VisitsMirror(store, rank, f, ids, None);
    VisitsMatchIds(f, None);
    var u := SaveOrder(gen, f).value;
    forall x | x in Ids(f)
      ensures Lookup(store, x).Some? && u[PathOf(x)] == Normalised(Lookup(store, x).value)
    {
      var i :| 0 <= i < |Ids(f)| && Ids(f)[i] == x;
      var v := Visits(f, None)[i];
      MirrorsRecordAt(store, v.node, Lookup(store, x).value);
    }
  }

  /** The largest rank of a record in `rs` (0 when none is ranked). */
  function MaxRank(rs: seq<Record>, rank: map<string, nat>): (m: nat)
    ensures forall i :: 0 <= i < |rs| && rs[i].id in rank ==> rank[rs[i].id] <= m
    decreases |rs|
  {
    if |rs| == 0 then 0
    else
      var m := MaxRank(rs[1..], rank);
      var r := RankOf(rank, rs[0].id);
      if r > m then r else m
  }

  /**
   * Every stored record of a well-formed store appears in its materialised
   * view: following `parentId` upwards always reaches a root, and the view
   * is closed under `children`.
   */
  lemma MaterialiseReachesAll(store: Store, rank: map<string, nat>)
    requires WellFormed(store, rank)
    ensures Ranked(store, rank)
    ensures forall i :: 0 <= i < |store| ==> store[i].id in Ids(Materialise(store, rank))
  {
    var f := Materialise(store, rank);
    var roots := RootRecords(store);
    var ids := seq(|roots|, k requires 0 <= k < |roots| => roots[k].id);
    forall k | 0 <= k < |ids| ensures Lookup(store, ids[k]) == Some(roots[k]) {
      assert roots[k] in store;
    }
    assert MirrorForest(store, f, ids);
    ForestClosed(store, rank, f, ids);
    forall k | 0 <= k < |roots| ensures roots[k].id in Ids(f) {
      assert Ids(f[k..]) == [IdText(f[k])] + Ids(f[k].children) + Ids(f[k + 1..]);
      IdsSuffix(f, k);
    }
    forall i | 0 <= i < |store| ensures store[i].id in Ids(f) {
      Climb(store, rank, f, roots, store[i].id);
    }
  }

  /** A stored record lies in a view holding every root and closed under `children`. */
  lemma {:induction false} Climb(store: Store, rank: map<string, nat>, f: seq<Tree>, roots: seq<Record>, x: string)
    requires WellFormed(store, rank) && Lookup(store, x).Some?
    requires forall r :: r in roots <==> r in store && IsRoot(r)
    requires forall k :: 0 <= k < |roots| ==> roots[k].id in Ids(f)
    requires forall y, c :: y in Ids(f) && Lookup(store, y).Some? && c in ChildIds(Lookup(store, y).value) ==> c in Ids(f)
    ensures x in Ids(f)
    decreases MaxRank(store, rank) - RankOf(rank, x)
  {
    var rec := Lookup(store, x).value;
    if rec.parentId.None? {
      assert rec in roots;
      var k :| 0 <= k < |roots| && roots[k] == rec;
    } else {
      var q := rec.parentId.value;
      ParentRanksHigher(store, rank, x);
      var j :| 0 <= j < |store| && store[j] == Lookup(store, q).value;
      assert RankOf(rank, q) <= MaxRank(store, rank);
      Climb(store, rank, f, roots, q);
    }
  }

  /** The view of a forest is closed under the stored `children` links. */
  lemma {:induction false} ForestClosed(store: Store, rank: map<string, nat>, ts: seq<Tree>, ids: seq<string>)
    requires WellFormed(store, rank)
    requires MirrorForest(store, ts, ids)
    ensures forall x, c :: x in Ids(ts) && Lookup(store, x).Some? && c in ChildIds(Lookup(store, x).value) ==> c in Ids(ts)
    decreases ts
  {
    if |ts| > 0 {
      var rec := Lookup(store, ids[0]).value;
      MirrorChildren(store, ts[0], rec);
      ForestClosed(store, rank, ts[0].children, ChildIds(rec));
      MirrorForestTail(store, ts, ids);
      ForestClosed(store, rank, ts[1..], ids[1..]);
      assert Ids(ts) == [rec.id] + Ids(ts[0].children) + Ids(ts[1..]);
      forall c | c in ChildIds(rec) ensures c in Ids(ts[0].children) {
        var j :| 0 <= j < |ChildIds(rec)| && ChildIds(rec)[j] == c;
        assert Mirrors(store, ts[0].children[j], Lookup(store, c).value);
        assert Ids(ts[0].children[j..]) == [c] + Ids(ts[0].children[j].children) + Ids(ts[0].children[j + 1..]);
        IdsSuffix(ts[0].children, j);
      }
    }
  }

  /** The ids of a suffix of a forest are ids of the forest. */
  lemma {:induction false} IdsSuffix(ts: seq<Tree>, j: nat)
    requires j <= |ts|
    ensures forall x :: x in Ids(ts[j..]) ==> x in Ids(ts)
    decreases j
  {
    if j > 0 {
      IdsSuffix(ts[1..], j - 1);
      assert ts[1..][j - 1..] == ts[j..];
    }
  }
}

=== FILE: menu_save.dfy ===
/**
 * Saving the edited view back to the store (src/MenuItems/MenuItems.tsx,
 * `saveOrder` with its inner `addChildrenUpdates`). The source walks the
 * view depth-first, draws a fresh key for every node without an id, and
 * collects one update map that it submits in one call.
 *
 * The walk is modelled as written (SaveChild, AddChildrenUpdates,
 * SaveChildren, SaveRoots). Its reference is the two-step description
 * AssignRoots (which ids end up used) followed by Flat (the records a tree
 * denotes); SaveOrderIsFlat proves the two agree.
 */
module MenuSave {
  import opened Wrappers
  import opened MenuStore
  import opened MenuView
  import opened MenuFlat

  /** The key generator: the n-th `push().key` of one save returns `gen(n)`. */
  type KeySupply = nat -> Option<string>

  /**
   * `node.id || push().key`, then the source's `if (!newId)` test: an
   * existing non-empty id is reused without drawing a key; otherwise one key
   * is drawn, and a null or empty key means the node is skipped (`None`).
   */
  function Allocate(id: Option<string>, gen: KeySupply, next: nat): (r: (Option<string>, nat))
    ensures r.0.Some? ==> r.0.value != ""
    ensures Truthy(id) ==> r == (id, next)
    ensures !Truthy(id) ==> r.1 == next + 1 && (r.0.Some? <==> Truthy(gen(next)))
    ensures !Truthy(id) && r.0.Some? ==> r.0 == gen(next)
  {
    if Truthy(id) then (id, next)
    else if Truthy(gen(next)) then (gen(next), next + 1)
    else (None, next + 1)
  }

  /** The update map under construction and the number of keys drawn so far. */
  datatype Saving = Saving(updates: map<string, Record>, next: nat)

  /**
   * One iteration of the loop in `addChildrenUpdates`: allocate the child's
   * id, write `{title, id, parentId}` and recurse into the child. Returns the
   * id pushed onto the parent's `children`, or None when the child is skipped.
   */
  function SaveChild(gen: KeySupply, parentId: string, child: Tree, s: Saving): (r: (Saving, Option<string>))
    ensures s.updates.Keys <= r.0.updates.Keys
    ensures r.0.next >= s.next
    ensures r.1.Some? ==> r.1.value != "" && PathOf(r.1.value) in r.0.updates
    ensures r.1.None? ==> r.0 == s.(next := s.next + 1)
    decreases child, 1
  {
    var (k, n) := Allocate(child.id, gen, s.next);
    match k
    case None => (s.(next := n), None)
    case Some(id) =>
      var s1 := Saving(s.updates[PathOf(id) := Record(id, child.title, None, Some(parentId))], n);
      (AddChildrenUpdates(gen, id, child, s1), Some(id))
  }

  /**
   * `addChildrenUpdates(parentId, item)`: save the children in order, then,
   * if any was kept, rewrite the parent's pending record with the collected
   * `children` list.
   */
  function AddChildrenUpdates(gen: KeySupply, parentId: string, item: Tree, s: Saving): (r: Saving)
    requires PathOf(parentId) in s.updates
    ensures s.updates.Keys <= r.updates.Keys
    ensures r.next >= s.next
    decreases item, 0
  {
    var (s1, ids) := SaveChildren(gen, parentId, item.children, s);
    if |ids| == 0 then s1
    else
      var p := PathOf(parentId);
      s1.(updates := s1.updates[p := s1.updates[p].(children := Some(ids))])
  }

  /** The loop of `addChildrenUpdates` over `kids`, returning the kept ids in order. */
  function SaveChildren(gen: KeySupply, parentId: string, kids: seq<Tree>, s: Saving): (r: (Saving, seq<string>))
    ensures s.updates.Keys <= r.0.updates.Keys
    ensures r.0.next >= s.next
    ensures |r.1| <= |kids|
    ensures forall k :: 0 <= k < |r.1| ==> r.1[k] != ""
    decreases kids
  {
    if |kids| == 0 then (s, [])
    else
      var (s1, k) := SaveChild(gen, parentId, kids[0], s);
      var (s2, ids) := SaveChildren(gen, parentId, kids[1..], s1);
      (s2, (if k.Some? then [k.value] else []) + ids)
  }

  /**
   * The loop of `saveOrder` over the roots: a root is written as
   * `{title, id}` and its children are saved; a root whose key cannot be
   * allocated aborts the whole save (None).
   */
  function SaveRoots(gen: KeySupply, roots: seq<Tree>, s: Saving): (r: Option<Saving>)
    ensures r.Some? ==> s.updates.Keys <= r.value.updates.Keys
    ensures |roots| > 0 && !Truthy(roots[0].id) && !Truthy(gen(s.next)) ==> r.None?
    decreases roots
  {
    if |roots| == 0 then Some(s)
    else
      var (k, n) := Allocate(roots[0].id, gen, s.next);
      match k
      case None => None
      case Some(id) =>
        var s1 := Saving(s.updates[PathOf(id) := Record(id, roots[0].title, None, None)], n);
        SaveRoots(gen, roots[1..], AddChildrenUpdates(gen, id, roots[0], s1))
  }

  /** `saveOrder`: the update map submitted for the view `roots`, or None when it returns early. */
  function SaveOrder(gen: KeySupply, roots: seq<Tree>): (r: Option<map<string, Record>>)
    ensures |roots| == 0 ==> r == Some(map[])
  {
    match SaveRoots(gen, roots, Saving(map[], 0))
    case None => None
    case Some(s) => Some(s.updates)
  }

  /*
   * Reference: the ids a save ends up using. Walking the view in the same
   * order as the source, a node keeps a non-empty id, draws the next key
   * otherwise, and is dropped with its subtree when the key is unusable; a
   * root that cannot get a key fails the whole assignment.
   */

  /** The child `t` with ids assigned, or None when it is skipped. */
  function AssignChild(gen: KeySupply, t: Tree, n: nat): (r: (Option<Tree>, nat))
    ensures r.1 >= n
    ensures r.0.None? <==> !Truthy(t.id) && !Truthy(gen(n))
    ensures r.0.Some? ==> Identified(r.0.value) && r.0.value.title == t.title
    ensures r.0.Some? && Truthy(t.id) ==> r.0.value.id == t.id
    ensures r.0.Some? && !Truthy(t.id) ==> r.0.value.id == gen(n)
    ensures Identified(t) ==> r == (Some(t), n)
    decreases t, 1
  {
    var (k, n1) := Allocate(t.id, gen, n);
    match k
    case None => (None, n1)
    case Some(id) =>
      var (kids, n2) := AssignChildren(gen, t.children, n1);
      (Some(t.(id := Some(id), children := kids)), n2)
  }

  /** The kept children of a node, with ids assigned, in order. */
  function AssignChildren(gen: KeySupply, ts: seq<Tree>, n: nat): (r: (seq<Tree>, nat))
    ensures r.1 >= n
    ensures |r.0| <= |ts|
    ensures forall j :: 0 <= j < |r.0| ==> Identified(r.0[j])
    ensures (forall j :: 0 <= j < |ts| ==> Identified(ts[j])) ==> r == (ts, n)
    decreases ts
  {
    if |ts| == 0 then ([], n)
    else
      var (o, n1) := AssignChild(gen, ts[0], n);
      var (rest, n2) := AssignChildren(gen, ts[1..], n1);
      assert ts == [ts[0]] + ts[1..];
      ((if o.Some? then [o.value] else []) + rest, n2)
  }

  /** The roots with ids assigned, or None when some root gets no key. */
  function AssignRoots(gen: KeySupply, ts: seq<Tree>, n: nat): (r: Option<(seq<Tree>, nat)>)
    ensures r.Some? ==> |r.value.0| == |ts|
    ensures r.Some? ==> forall k :: 0 <= k < |ts| ==>
      && Identified(r.value.0[k])
      && r.value.0[k].title == ts[k].title
      && (Truthy(ts[k].id) ==> r.value.0[k].id == ts[k].id)
    ensures (forall k :: 0 <= k < |ts| ==> Identified(ts[k])) ==> r == Some((ts, n))
    decreases ts
  {
    if |ts| == 0 then Some(([], n))
    else
      var (k, n1) := Allocate(ts[0].id, gen, n);
      match k
      case None => None
      case Some(id) =>
        var (kids, n2) := AssignChildren(gen, ts[0].children, n1);
        match AssignRoots(gen, ts[1..], n2)
        case None => None
        case Some((rest, n3)) =>
          assert ts == [ts[0]] + ts[1..];
          Some(([ts[0].(id := Some(id), children := kids)] + rest, n3))
  }

  lemma MapMergeAssoc<K, V>(a: map<K, V>, b: map<K, V>, c: map<K, V>)
    ensures (a + b) + c == a + (b + c)
  {
  }

  lemma MapMergeEmpty<K, V>(m: map<K, V>)
    ensures map[] + m == m
  {
  }

  lemma MapWriteThenMerge<K, V>(m: map<K, V>, f: map<K, V>, k: K, a: V, b: V)
    ensures (m[k := a] + f)[k := b] == m + f[k := b]
  {
  }

  /**
   * A node that got the id `id`: writing its record and then running
   * `addChildrenUpdates` draws the keys its reference assignment draws, and,
   * when its id does not reappear below it, adds exactly its flat image.
   */
  lemma {:induction false} NodeMatchesFlat(gen: KeySupply, id: string, t: Tree, parent: Option<string>,
                                           m: map<string, Record>, n1: nat)
    ensures AddChildrenUpdates(gen, id, t, Saving(m[PathOf(id) := Record(id, t.title, None, parent)], n1)).next
            == AssignChildren(gen, t.children, n1).1
    ensures var t' := t.(id := Some(id), children := AssignChildren(gen, t.children, n1).0);
      SelfDisjoint(t') ==>
        AddChildrenUpdates(gen, id, t, Saving(m[PathOf(id) := Record(id, t.title, None, parent)], n1)).updates
        == m + Flat(t', parent)
    decreases t, 1
  {
    var kids := AssignChildren(gen, t.children, n1).0;
    var t' := t.(id := Some(id), children := kids);
    var rec0 := Record(id, t.title, None, parent);
    var s1 := Saving(m[PathOf(id) := rec0], n1);
    ChildrenMatchFlat(gen, id, t.children, s1);
    if SelfDisjoint(t') {
      var ff := FlatForest(kids, Some(id));
      assert AllSelfDisjoint(kids);
      FlatForestMisses(kids, Some(id), id);
      WriteParent(m, ff, PathOf(id), rec0, RecordAt(t', parent), IdList(kids));
    }
  }

  /**
   * The last step of `addChildrenUpdates`: the parent's pending record,
   * completed with its `children` list when there is one, merged with the
   * children's records, which do not touch the parent's key.
   */
  lemma WriteParent(m: map<string, Record>, ff: map<string, Record>, k: string, rec0: Record, rec: Record,
                    ids: seq<string>)
    requires k !in ff
    requires |ids| == 0 ==> rec == rec0
    requires |ids| > 0 ==> rec == rec0.(children := Some(ids))
    ensures var u := m[k := rec0] + ff;
      (if |ids| == 0 then u else u[k := u[k].(children := Some(ids))]) == m + ff[k := rec]
  {
    if |ids| > 0 {
      MapWriteThenMerge(m, ff, k, rec0, rec);
    }
  }

  /** `SaveChild` agrees with `AssignChild` followed by `Flat`. */
  lemma {:induction false} ChildMatchesFlat(gen: KeySupply, p: string, t: Tree, s: Saving)
    ensures SaveChild(gen, p, t, s).0.next == AssignChild(gen, t, s.next).1
    ensures var o := AssignChild(gen, t, s.next).0;
      SaveChild(gen, p, t, s).1 == (if o.Some? then o.value.id else None)
    ensures AssignChild(gen, t, s.next).0.None? ==> SaveChild(gen, p, t, s).0.updates == s.updates
    ensures var o := AssignChild(gen, t, s.next).0;
      o.Some? && SelfDisjoint(o.value) ==> SaveChild(gen, p, t, s).0.updates == s.updates + Flat(o.value, Some(p))
    decreases t, 2
  {
    var k := Allocate(t.id, gen, s.next);
    if k.0.Some? {
      NodeMatchesFlat(gen, k.0.value, t, Some(p), s.updates, k.1);
    }
  }

  /** `SaveChildren` agrees with `AssignChildren` followed by `FlatForest`. */
  lemma {:induction false} ChildrenMatchFlat(gen: KeySupply, p: string, ts: seq<Tree>, s: Saving)
    ensures SaveChildren(gen, p, ts, s).0.next == AssignChildren(gen, ts, s.next).1
    ensures SaveChildren(gen, p, ts, s).1 == IdList(AssignChildren(gen, ts, s.next).0)
    ensures AllSelfDisjoint(AssignChildren(gen, ts, s.next).0) ==>
      SaveChildren(gen, p, ts, s).0.updates == s.updates + FlatForest(AssignChildren(gen, ts, s.next).0, Some(p))
    decreases ts
  {
    if |ts| > 0 {
      var c := AssignChild(gen, ts[0], s.next);
      var sc := SaveChild(gen, p, ts[0], s);
      ChildMatchesFlat(gen, p, ts[0], s);
      ChildrenMatchFlat(gen, p, ts[1..], sc.0);
      var a := AssignChildren(gen, ts[1..], c.1);
      var sr := SaveChildren(gen, p, ts[1..], sc.0);
      var kids := (if c.0.Some? then [c.0.value] else []) + a.0;
      assert AssignChildren(gen, ts, s.next) == (kids, a.1);
      assert SaveChildren(gen, p, ts, s) == (sr.0, (if sc.1.Some? then [sc.1.value] else []) + sr.1);
      if c.0.Some? {
        assert kids[0] == c.0.value && kids[1..] == a.0;
        IdListCons(c.0.value, a.0);
        if AllSelfDisjoint(kids) {
          assert SelfDisjoint(kids[0]);
          assert AllSelfDisjoint(a.0) by {
            forall j | 0 <= j < |a.0| ensures SelfDisjoint(a.0[j]) { assert a.0[j] == kids[j + 1]; }
          }
          var fl := Flat(c.0.value, Some(p));
          var fr := FlatForest(a.0, Some(p));
          assert FlatForest(kids, Some(p)) == fl + fr;
          assert sc.0.updates == s.updates + fl;
          assert sr.0.updates == sc.0.updates + fr;
          MapMergeAssoc(s.updates, fl, fr);
        }
      } else {
        assert kids == a.0;
      }
    }
  }

  /** `SaveRoots` agrees with `AssignRoots` followed by `FlatForest`. */
  lemma {:induction false} RootsMatchFlat(gen: KeySupply, roots: seq<Tree>, s: Saving)
    ensures AssignRoots(gen, roots, s.next).None? ==> SaveRoots(gen, roots, s).None?
    ensures AssignRoots(gen, roots, s.next).Some? ==> SaveRoots(gen, roots, s).Some?
    ensures var a := AssignRoots(gen, roots, s.next);
      a.Some? && AllSelfDisjoint(a.value.0) ==>
        SaveRoots(gen, roots, s) == Some(Saving(s.updates + FlatForest(a.value.0, None), a.value.1))
    decreases roots
  {
    if |roots| == 0 {
      assert s.updates + FlatForest([], None) == s.updates;
    } else {
      var k := Allocate(roots[0].id, gen, s.next);
      if k.0.Some? {
        var id := k.0.value;
        var t := roots[0];
        NodeMatchesFlat(gen, id, t, None, s.updates, k.1);
        var ac := AssignChildren(gen, t.children, k.1);
        var t' := t.(id := Some(id), children := ac.0);
        var s3 := AddChildrenUpdates(gen, id, t, Saving(s.updates[PathOf(id) := Record(id, t.title, None, None)], k.1));
        assert SaveRoots(gen, roots, s) == SaveRoots(gen, roots[1..], s3);
        RootsMatchFlat(gen, roots[1..], s3);
        var ar := AssignRoots(gen, roots[1..], ac.1);
        if ar.Some? {
          var f := [t'] + ar.value.0;
          assert AssignRoots(gen, roots, s.next) == Some((f, ar.value.1));
          if AllSelfDisjoint(f) {
            assert SelfDisjoint(f[0]);
            assert AllSelfDisjoint(ar.value.0) by {
              forall j | 0 <= j < |ar.value.0| ensures SelfDisjoint(ar.value.0[j]) { assert ar.value.0[j] == f[j + 1]; }
            }
            assert f[0] == t' && f[1..] == ar.value.0;
            assert FlatForest(f, None) == Flat(t', None) + FlatForest(ar.value.0, None);
            assert s3.updates == s.updates + Flat(t', None);
            assert SaveRoots(gen, roots[1..], s3) == Some(Saving(s3.updates + FlatForest(ar.value.0, None), ar.value.1));
            MapMergeAssoc(s.updates, Flat(t', None), FlatForest(ar.value.0, None));
          }
        }
      }
    }
  }

  /**
   * `saveOrder` equals the reference: it fails exactly when the assignment
   * fails, and otherwise submits the flat image of the assigned view
   * (provided no id reappears inside its own subtree).
   */
  lemma SaveOrderIsFlat(gen: KeySupply, roots: seq<Tree>)
    ensures SaveOrder(gen, roots).None? <==> AssignRoots(gen, roots, 0).None?
    ensures var a := AssignRoots(gen, roots, 0);
      a.Some? && AllSelfDisjoint(a.value.0) ==> SaveOrder(gen, roots) == Some(FlatForest(a.value.0, None))
  {
    var s0 := Saving(map[], 0);
    RootsMatchFlat(gen, roots, s0);
    var a := AssignRoots(gen, roots, 0);
    if a.Some? && AllSelfDisjoint(a.value.0) {
      MapMergeEmpty(FlatForest(a.value.0, None));
    }
  }

  /**
   * When the assigned view repeats no id, `saveOrder` writes exactly one
   * record per node: under the node's (kept or freshly drawn) id, with that
   * id, its title, `parentId` the id of its tree parent (absent for a root)
   * and `children` the ids of its tree children in order (absent when none).
   */
  lemma SaveOrderRecords(gen: KeySupply, roots: seq<Tree>)
    requires AssignRoots(gen, roots, 0).Some?
    requires NoDuplicates(Ids(AssignRoots(gen, roots, 0).value.0))
    ensures SaveOrder(gen, roots).Some?
    ensures var f := AssignRoots(gen, roots, 0).value.0;
      SaveOrder(gen, roots).value.Keys == Paths(Ids(f))
    ensures var f := AssignRoots(gen, roots, 0).value.0;
      var u := SaveOrder(gen, roots).value;
      forall i :: 0 <= i < |Visits(f, None)| ==>
        var v := Visits(f, None)[i];
        PathOf(IdText(v.node)) in u && u[PathOf(IdText(v.node))] == RecordAt(v.node, v.parent)
  {
    var f := AssignRoots(gen, roots, 0).value.0;
    DistinctSelfDisjoint(f);
    SaveOrderIsFlat(gen, roots);
    FlatForestRecords(f, None);
    FlatForestKeys(f, None);
  }
}

=== FILE: menu_store.dfy ===
/**
 * The flat menu store: every menu item is one record under the `menuItems`
 * key of the realtime database, and parent/child links are id references
 * (src/MenuItems/MenuItems.tsx, interface `DBMenuItem`).
 */
module MenuStore {
  import opened Wrappers

  /** The database key under which all menu items live (`DB_KEY`). */
  const DbKey: string := "menuItems"

  /** One persisted menu item. Absent optional fields are `None`. */
  datatype Record = Record(
    id: string,
    title: string,
    children: Option<seq<string>>,
    parentId: Option<string>)

  /** JavaScript truthiness of an optional string: present and non-empty. */
  predicate Truthy(s: Option<string>)
  {
    s.Some? && s.value != ""
  }

  /** A record is a root of the menu when its `parentId` is absent or empty. */
  predicate IsRoot(r: Record)
  {
    !Truthy(r.parentId)
  }

  /** The record's child ids, an absent list read as the empty one. */
  function ChildIds(r: Record): seq<string>
  {
    r.children.GetOr([])
  }

  /** The update path of the record with the given id: `menuItems/<id>`. */
  function PathOf(id: string): (p: string)
    ensures |p| == |DbKey| + 1 + |id|
    ensures p[|DbKey| + 1..] == id
  {
    DbKey + "/" + id
  }

  /** The text a JavaScript template literal makes of an optional id. */
  function KeyText(id: Option<string>): string
  {
    match id
    case Some(s) => s
    case None => "undefined"
  }

  /** Different ids are written under different paths. */
  lemma PathOfInjective(a: string, b: string)
    ensures PathOf(a) == PathOf(b) ==> a == b
  {
    assert a == PathOf(a)[|DbKey| + 1..];
    assert b == PathOf(b)[|DbKey| + 1..];
  }

  predicate NoDuplicates<T(==)>(s: seq<T>)
  {
    forall i, j :: 0 <= i < j < |s| ==> s[i] != s[j]
  }

  predicate DistinctIds(s: seq<Record>)
  {
    forall i, j :: 0 <= i < j < |s| ==> s[i].id != s[j].id
  }

  /**
   * The store as `Object.values` enumerates it. A record's key in the
   * database is its own `id`, so no two records share an id.
   */
  type Store = s: seq<Record> | DistinctIds(s) witness []

  /** `dbMenuItems[id]`: the record stored under `id`, if any. */
  function Lookup(store: Store, id: string): (r: Option<Record>)
    ensures r.Some? ==> r.value.id == id && r.value in store
    ensures r.None? <==> forall i :: 0 <= i < |store| ==> store[i].id != id
    ensures forall i :: 0 <= i < |store| && store[i].id == id ==> r == Some(store[i])
  {
    if |store| == 0 then None
    else if store[0].id == id then Some(store[0])
    else Lookup(store[1..], id)
  }

  /** The update paths of a list of ids. */
  function Paths(ids: seq<string>): set<string>
  {
    set x | x in ids :: PathOf(x)
  }

  lemma PathsConcat(a: seq<string>, b: seq<string>)
    ensures Paths(a + b) == Paths(a) + Paths(b)
  {
  }

  /**
   * The consistency the store is meant to keep: ids are non-empty, `rank`
   * witnesses that following `children` always descends (no cycles), every
   * child id names a record that points back through `parentId`, every
   * `parentId` names a record that lists the child, and no children list
   * repeats an id.
   */
  ghost predicate WellFormed(store: Store, rank: map<string, nat>)
  {
    && (forall i :: 0 <= i < |store| ==> store[i].id != "" && store[i].id in rank)
    && (forall i, c :: 0 <= i < |store| && c in ChildIds(store[i]) ==>
          && Lookup(store, c).Some?
          && c in rank && rank[c] < rank[store[i].id]
          && Lookup(store, c).value.parentId == Some(store[i].id))
    && (forall i :: 0 <= i < |store| && store[i].parentId.Some? ==>
          && store[i].parentId.value != ""
          && Lookup(store, store[i].parentId.value).Some?
          && store[i].id in ChildIds(Lookup(store, store[i].parentId.value).value))
    && (forall i :: 0 <= i < |store| ==> NoDuplicates(ChildIds(store[i])))
  }
}

=== FILE: menu_view.dfy ===
/**
 * The nested view of the menu (`TreeItem` of react-sortable-tree) and its
 * materialisation from the flat store (src/MenuItems/MenuItems.tsx, the
 * second effect: `transformFromBackend` and the loop over the roots).
 */
module MenuView {
  import opened Wrappers
  import opened MenuStore

  /**
   * A node of the view. `id` is absent for a node that was never saved;
   * `parentId` is whatever the node was materialised with.
   */
  datatype Tree = Node(
    id: Option<string>,
    title: string,
    parentId: Option<string>,
    children: seq<Tree>,
    expanded: bool)

  /**
   * `rank` orders the records that materialisation can reach: each of their
   * child ids is stored, ranked, and ranked strictly lower. Without it the
   * source either dereferences a missing record or never terminates.
   */
  ghost predicate Ranked(store: Store, rank: map<string, nat>)
  {
    forall i, c :: 0 <= i < |store| && store[i].id in rank && c in ChildIds(store[i]) ==>
      Lookup(store, c).Some? && c in rank && rank[c] < rank[store[i].id]
  }

  /** The root records, in store order. */
  function RootRecords(store: Store): (roots: Store)
    ensures forall r :: r in roots <==> r in store && IsRoot(r)
    ensures |roots| <= |store|
  {
    if |store| == 0 then []
    else
      var rest := RootRecords(store[1..]);
      assert forall r :: r in rest ==> r.id != store[0].id;
      (if IsRoot(store[0]) then [store[0]] else []) + rest
  }

  /**
   * `t` is the view of `rec`: same id, title and parent, fully expanded,
   * and its children are, position by position, the views of the records
   * that `rec.children` names.
   */
  ghost predicate Mirrors(store: Store, t: Tree, rec: Record)
    decreases t
  {
    && t.id == Some(rec.id)
    && t.title == rec.title
    && t.parentId == rec.parentId
    && t.expanded
    && |t.children| == |ChildIds(rec)|
    && forall j :: 0 <= j < |t.children| ==>
         && Lookup(store, ChildIds(rec)[j]).Some?
         && Mirrors(store, t.children[j], Lookup(store, ChildIds(rec)[j]).value)
  }

  /** `transformFromBackend`: the expanded subtree of one record. */
  function Build(store: Store, ghost rank: map<string, nat>, rec: Record): (t: Tree)
    requires Ranked(store, rank)
    requires rec in store && rec.id in rank
    ensures Mirrors(store, t, rec)
    ensures rec.children.None? ==> t.children == []
    decreases rank[rec.id]
  {
    var ids := ChildIds(rec);
    Node(Some(rec.id), rec.title, rec.parentId,
         seq(|ids|, j requires 0 <= j < |ids| => Build(store, rank, Lookup(store, ids[j]).value)),
         true)
  }

  /** The view the dashboard shows: one expanded tree per root record. */
  function Materialise(store: Store, ghost rank: map<string, nat>): (forest: seq<Tree>)
    requires Ranked(store, rank)
    requires forall i :: 0 <= i < |store| && IsRoot(store[i]) ==> store[i].id in rank
    ensures |forest| == |RootRecords(store)|
    ensures forall k :: 0 <= k < |forest| ==> Mirrors(store, forest[k], RootRecords(store)[k])
  {
    var roots := RootRecords(store);
    seq(|roots|, k requires 0 <= k < |roots| => Build(store, rank, roots[k]))
  }

  /** Every node of a tree is expanded. */
  ghost predicate AllExpanded(t: Tree)
  {
    t.expanded && forall j :: 0 <= j < |t.children| ==> AllExpanded(t.children[j])
  }

  /** The view of a record is unique: `Mirrors` pins down the whole tree. */
  lemma {:induction false} MirrorsUnique(store: Store, t1: Tree, t2: Tree, rec: Record)
    requires Mirrors(store, t1, rec) && Mirrors(store, t2, rec)
    ensures t1 == t2
    decreases t1
  {
    forall j | 0 <= j < |t1.children|
      ensures t1.children[j] == t2.children[j]
    {
      MirrorsUnique(store, t1.children[j], t2.children[j], Lookup(store, ChildIds(rec)[j]).value);
    }
    assert t1.children == t2.children;
  }

  /** Materialisation expands every node. */
  lemma {:induction false} MirrorsExpanded(store: Store, t: Tree, rec: Record)
    requires Mirrors(store, t, rec)
    ensures AllExpanded(t)
    decreases t
  {
    forall j | 0 <= j < |t.children|
      ensures AllExpanded(t.children[j])
    {
      MirrorsExpanded(store, t.children[j], Lookup(store, ChildIds(rec)[j]).value);
    }
  }
}

=== FILE: site_info.dfy ===
/**
 * The site-information reducer (src/features/SiteInfo/siteInfoReducer.tsx):
 * four text fields and two lists, changed by eleven kinds of action. List
 * edits go through JavaScript's `Array.prototype.slice`, modelled here
 * exactly, so out-of-range and negative indices behave as in the browser.
 */
module SiteInfoReducer {

  datatype SiteInfo = SiteInfo(
    shortName: string,
    fullName: string,
    facebookLink: string,
    youtubeLink: string,
    phoneNumbers: seq<string>,
    emails: seq<string>)

  const InitialState: SiteInfo := SiteInfo("", "", "", "", [], [])

  datatype Action =
    | AddAll(info: SiteInfo)
    | AddShortName(name: string)
    | AddFullName(name: string)
    | AddFacebookLink(link: string)
    | AddYouTubeLink(link: string)
    | AddPhoneNumber(number: string)
    | UpdatePhoneNumber(number: string, index: int)
    | DeletePhoneNumber(index: int)
    | AddEmail(email: string)
    | UpdateEmail(email: string, index: int)
    | DeleteEmail(index: int)
  {
    predicate TouchesPhones()
    {
      AddPhoneNumber? || UpdatePhoneNumber? || DeletePhoneNumber?
    }

    predicate TouchesEmails()
    {
      AddEmail? || UpdateEmail? || DeleteEmail?
    }
  }

  /**
   * How `slice` reads one bound: a negative index counts from the end, and
   * the result is clamped to `[0, len]`.
   */
  function Bound(len: nat, i: int): (k: nat)
    ensures k <= len
    ensures 0 <= i <= len ==> k == i
    ensures i > len ==> k == len
    ensures i < 0 ==> k == if len + i < 0 then 0 else len + i
  {
    if i < 0 then (if len + i < 0 then 0 else len + i)
    else if i > len then len
    else i
  }

  /** `s.slice(start, end)`: empty when the bounds cross. */
  function Slice<T>(s: seq<T>, start: int, end: int): (r: seq<T>)
    ensures 0 <= start <= end <= |s| ==> r == s[start..end]
    ensures |r| <= |s|
    ensures forall j :: 0 <= j < |r| ==> Bound(|s|, start) + j < |s| && r[j] == s[Bound(|s|, start) + j]
  {
    var a := Bound(|s|, start);
    var b := Bound(|s|, end);
    if a <= b then s[a..b] else []
  }

  /**
   * `[...s.slice(0, i), x, ...s.slice(i + 1)]`: in range, a replacement;
   * past the end, an append; at `-1`, every entry kept and all but the
   * last duplicated around `x`.
   */
  function UpdateAt<T>(s: seq<T>, i: int, x: T): (r: seq<T>)
    ensures 0 <= i < |s| ==> |r| == |s| && r[i] == x && forall j :: 0 <= j < |s| && j != i ==> r[j] == s[j]
    ensures i >= |s| ==> r == s + [x]
    ensures i == -1 && |s| > 0 ==> r == s[..|s| - 1] + [x] + s
    ensures x in r && |r| >= |s|
  {
    Slice(s, 0, i) + [x] + Slice(s, i + 1, |s|)
  }

  /** `[...s.slice(0, i), ...s.slice(i + 1)]`. */
  function DeleteAt<T>(s: seq<T>, i: int): (r: seq<T>)
    ensures 0 <= i < |s| ==>
      && |r| == |s| - 1
      && (forall j :: 0 <= j < i ==> r[j] == s[j])
      && (forall j :: i <= j < |r| ==> r[j] == s[j + 1])
    ensures i >= |s| ==> r == s
    ensures i == -1 && |s| > 0 ==> r == s[..|s| - 1] + s
  {
    Slice(s, 0, i) + Slice(s, i + 1, |s|)
  }

  /**
   * The reducer. `AddAll` replaces the whole state; every other action
   * changes one field and keeps the rest.
   */
  function Reduce(state: SiteInfo, action: Action): (r: SiteInfo)
    ensures action.AddAll? ==> r == action.info
    ensures !action.AddAll? && !action.TouchesPhones() ==> r.phoneNumbers == state.phoneNumbers
    ensures !action.AddAll? && !action.TouchesEmails() ==> r.emails == state.emails
    ensures action.AddShortName? ==> r.shortName == action.name
    ensures action.AddFullName? ==> r.fullName == action.name
    ensures action.AddFacebookLink? ==> r.facebookLink == action.link
    ensures action.AddYouTubeLink? ==> r.youtubeLink == action.link
    ensures !action.AddAll? && !action.AddShortName? ==> r.shortName == state.shortName
    ensures !action.AddAll? && !action.AddFullName? ==> r.fullName == state.fullName
    ensures !action.AddAll? && !action.AddFacebookLink? ==> r.facebookLink == state.facebookLink
    ensures !action.AddAll? && !action.AddYouTubeLink? ==> r.youtubeLink == state.youtubeLink
    ensures action.AddPhoneNumber? ==> r.phoneNumbers == state.phoneNumbers + [action.number]
    ensures action.AddEmail? ==> r.emails == state.emails + [action.email]
    ensures action.UpdatePhoneNumber? ==> r.phoneNumbers == UpdateAt(state.phoneNumbers, action.index, action.number)
    ensures action.DeletePhoneNumber? ==> r.phoneNumbers == DeleteAt(state.phoneNumbers, action.index)
    ensures action.UpdateEmail? ==> r.emails == UpdateAt(state.emails, action.index, action.email)
    ensures action.DeleteEmail? ==> r.emails == DeleteAt(state.emails, action.index)
  {
    match action
    case AddAll(info) => info
    case AddShortName(name) => state.(shortName := name)
    case AddFullName(name) => state.(fullName := name)
    case AddFacebookLink(link) => state.(facebookLink := link)
    case AddYouTubeLink(link) => state.(youtubeLink := link)
    case AddPhoneNumber(number) => state.(phoneNumbers := state.phoneNumbers + [number])
    case UpdatePhoneNumber(number, index) => state.(phoneNumbers := UpdateAt(state.phoneNumbers, index, number))
    case DeletePhoneNumber(index) => state.(phoneNumbers := DeleteAt(state.phoneNumbers, index))
    case AddEmail(email) => state.(emails := state.emails + [email])
    case UpdateEmail(email, index) => state.(emails := UpdateAt(state.emails, index, email))
    case DeleteEmail(index) => state.(emails := DeleteAt(state.emails, index))
  }

  /** Deleting the entry just added restores the list. */
  lemma AddThenDeleteRestores(state: SiteInfo, number: string, email: string)
    ensures Reduce(Reduce(state, AddPhoneNumber(number)), DeletePhoneNumber(|state.phoneNumbers|)) == state
    ensures Reduce(Reduce(state, AddEmail(email)), DeleteEmail(|state.emails|)) == state
  {
    var p := state.phoneNumbers + [number];
    assert DeleteAt(p, |state.phoneNumbers|) == state.phoneNumbers;
    var e := state.emails + [email];
    assert DeleteAt(e, |state.emails|) == state.emails;
  }

  /** Rewriting an entry with its current value changes nothing, in either list. */
  lemma UpdateWithSameIsIdentity(state: SiteInfo, i: nat)
    ensures i < |state.phoneNumbers| ==> Reduce(state, UpdatePhoneNumber(state.phoneNumbers[i], i)) == state
    ensures i < |state.emails| ==> Reduce(state, UpdateEmail(state.emails[i], i)) == state
  {
    if i < |state.phoneNumbers| {
      assert UpdateAt(state.phoneNumbers, i, state.phoneNumbers[i]) == state.phoneNumbers;
    }
    if i < |state.emails| {
      assert UpdateAt(state.emails, i, state.emails[i]) == state.emails;
    }
  }

  /** Deleting an entry, then re-adding it, moves it to the end. */
  lemma DeleteThenAddMovesLast(state: SiteInfo, i: nat)
    requires i < |state.emails|
    ensures var r := Reduce(Reduce(state, DeleteEmail(i)), AddEmail(state.emails[i]));
      && |r.emails| == |state.emails|
      && r.emails[|r.emails| - 1] == state.emails[i]
      && multiset(r.emails) == multiset(state.emails)
    ensures Reduce(Reduce(state, DeleteEmail(i)), AddEmail(state.emails[i])).emails
            == state.emails[..i] + state.emails[i + 1..] + [state.emails[i]]
  {
    var s := state.emails;
    var d := DeleteAt(s, i);
    assert d == s[..i] + s[i + 1..];
    assert s == s[..i] + [s[i]] + s[i + 1..];
  }

  /** A list action never disturbs the other list, so phone and e-mail edits commute. */
  lemma ListActionsCommute(state: SiteInfo, a: Action, b: Action)
    requires a.TouchesPhones() && b.TouchesEmails()
    ensures Reduce(Reduce(state, a), b) == Reduce(Reduce(state, b), a)
  {
  }

  /** The actions dispatched in order, starting from `state`. */
  function ReduceAll(state: SiteInfo, actions: seq<Action>): (r: SiteInfo)
    decreases |actions|
  {
    if |actions| == 0 then state else ReduceAll(Reduce(state, actions[0]), actions[1..])
  }

  /** One `AddPhoneNumber` action per number, in order. */
  function AddPhones(numbers: seq<string>): (r: seq<Action>)
    decreases |numbers|
  {
    if |numbers| == 0 then [] else [AddPhoneNumber(numbers[0])] + AddPhones(numbers[1..])
  }

  /** Adding phone numbers one by one appends them in order and touches nothing else. */
  lemma {:induction false} AddPhonesAppends(state: SiteInfo, numbers: seq<string>)
    ensures ReduceAll(state, AddPhones(numbers)) == state.(phoneNumbers := state.phoneNumbers + numbers)
    decreases |numbers|
  {
    if |numbers| > 0 {
      var next := Reduce(state, AddPhoneNumber(numbers[0]));
      var acts := AddPhones(numbers);
      assert acts[0] == AddPhoneNumber(numbers[0]) && acts[1..] == AddPhones(numbers[1..]);
      AddPhonesAppends(next, numbers[1..]);
      assert next.phoneNumbers + numbers[1..] == state.phoneNumbers + numbers;
    }
  }

  /** Starting from the initial state, the phone list holds exactly the numbers added. */
  lemma AddPhonesFromInitial(numbers: seq<string>)
    ensures ReduceAll(InitialState, AddPhones(numbers)).phoneNumbers == numbers
    ensures ReduceAll(InitialState, AddPhones(numbers)).emails == []
  {
    AddPhonesAppends(InitialState, numbers);
  }
}

=== FILE: wrappers.dfy ===
/** Optional values: the source's `undefined` / `null`. */
module Wrappers {

  datatype Option<+T> = None | Some(value: T) {

    /** The value, or `default` when there is none. */
    function GetOr(default: T): T
    {
      match this
      case Some(v) => v
      case None => default
    }
  }
}
